=== FILE: README.md ===
# Country financial profile: a Dafny model

This project models the data-gathering core of the Country Financial
Insights Agent. The agent takes a country name and builds one profile
dictionary from three tools:

- the **currency tool** finds the country's currency. It first looks in a
  static table keyed by the normalised name (stripped and lower-cased). On a
  miss it falls back to the RestCountries service. It then fetches exchange
  rates for that currency against USD, INR, GBP and EUR from currencyapi.com.
- the **stock tool** gives the country's exchanges and indices from a static
  catalog. It resolves United States and United Kingdom aliases first. Each
  index gets its latest closing price from a market-data provider.
- the **maps tool** turns the first exchange's headquarters address into a
  Google Maps search link. It strips the address, applies `quote_plus` and
  appends the result to a fixed prefix.

Each module models one source file or one Python library operation:

| module | models |
|---|---|
| `PyText` | `str.strip()` (Python's full `isspace` set), ASCII `lower()`/`upper()`, and `_normalize_country` |
| `Utf8` | the UTF-8 encoding `quote_plus` applies first, with its decoder |
| `UrlQuote` | `urllib.parse.quote_plus` with its defaults, and a strict partner decoder |
| `MapsTool` | `maps_tool.py` |
| `Json` | decoded JSON replies, with Python's truthiness, `dict.get` and `float()` on them |
| `Remote` | the replies of the three external services, the requests the tools issue, and the services as oracle functions |
| `CurrencyTool` | `currency_tool.py` |
| `StockTool` | `stock_tool.py` |
| `Agent` | `build_country_financial_profile` in `agent.py` |

The network, the environment variable and the market-data package are
parameters. `Remote.Services` bundles four oracles: the RestCountries
reply for a name, the currencyapi.com reply for a key and a base, the
closing-price history for a symbol, and Python's `float()` on a string. The
currency tool functions return `Traced(result, requests)`. So "no request
is made" and "exactly this request is made" are provable facts. Every
error text becomes a distinct error kind, such as `LookupStatus(status)`,
`NoCurrencyInfo`, `ApiKeyNotSet` or `NoValidRates`. Every `except
Exception` branch becomes the kind for its exception. The shapes of JSON
that would make a Python operation raise were worked out by hand from
the code. For example, `data[0]` on a dict raises, and `code in data`
on a list does not raise but the later `data[code]` does.

Where the documentation and the code disagree, the model follows the code,
and a few behaviours of the code are worth knowing:

- The docstring of `get_google_maps_link_for_address` (`maps_tool.py:17-19`)
  shows spaces written as `%20`. The code
  calls `quote_plus`, which writes a space as `+` (`maps_tool.py:21`).
  `MapsTool.DocumentedLinkUnreachable` proves that no address produces the
  documented URL.
- A returned rate need not be positive: the code keeps a rate of `0.0` when
  an entry has no `value` key (`currency_tool.py:136`). It also keeps any
  string or boolean that `float()` accepts. `CurrencyTool.EntryTreatment`
  states this.
- A currency code found remotely is not checked. Only the table's codes
  are proved to be three upper-case letters.

## Model

| member | source | states |
|---|---|---|
| `PyText.Strip` | maps_tool.py:21 | the result has no leading or trailing whitespace character and is no longer than the input |
| `PyText.StripUnique` | currency_tool.py:52 | whitespace runs around text that does not itself start or end with whitespace strip back to exactly that text |
| `PyText.StripIgnoresPadding` | maps_tool.py:21 | adding whitespace on either side does not change the stripped value |
| `PyText.StripIdempotent` | agent.py:51 | stripping an already stripped name changes nothing, so the agent's early strip does not change what the tools see |
| `PyText.Lower` | currency_tool.py:35 | `lower()`: same length, no ASCII upper-case letter left, each ASCII upper-case letter replaced by its lower-case letter and every other character unchanged; the stock tool normalises with the same call at stock_tool.py:137 |
| `PyText.Upper` | currency_tool.py:104 | `upper()`: same length, no ASCII lower-case letter left, each ASCII lower-case letter replaced by its upper-case letter and every other character unchanged |
| `PyText.NormalizeYieldsNormalized` | currency_tool.py:34-35 | a normalised name has no surrounding whitespace and no upper-case ASCII letter |
| `PyText.Normalize` | currency_tool.py:34-35 | `_normalize_country`: the result is no longer than the input and has no whitespace at either end; `PyText.NormalizeYieldsNormalized` adds that it has no upper-case ASCII letter |
| `PyText.NormalizeFixesNormalized` | currency_tool.py:34-35 | a name that is already normalised is its own normalisation |
| `PyText.NormalizeIdempotent` | stock_tool.py:136-137 | normalising twice is normalising once |
| `PyText.NormalizeInsensitive` | currency_tool.py:34-35 | surrounding whitespace and ASCII case do not change the normalised name |
| `Utf8.DecodeEncode` | maps_tool.py:21 | decoding the UTF-8 bytes of any text gives the text back |
| `Utf8.EncodeInjective` | maps_tool.py:21 | distinct texts have distinct UTF-8 encodings |
| `UrlQuote.QuoteByte` | maps_tool.py:21 | one byte is written as itself when unreserved, as `+` when it is the space, and otherwise as `%` plus two upper-case hex digits that denote that byte |
| `UrlQuote.QuotePlus` | maps_tool.py:21 | `quote_plus(s)` is in canonical form, and the partner decoder gives back exactly the UTF-8 bytes of `s` |
| `UrlQuote.UnquoteQuoteBytes` | maps_tool.py:21 | the partner decoder recovers every quoted byte sequence |
| `UrlQuote.QuotePlusRoundTrip` | maps_tool.py:21 | unquoting and then UTF-8 decoding `quote_plus(s)` gives `s` back |
| `UrlQuote.QuotePlusInjective` | maps_tool.py:21 | distinct strings quote to distinct queries |
| `UrlQuote.QuotePlusCanonical` | maps_tool.py:21 | every quoted query uses only unreserved characters, `+` and `%`, and every `%` escapes a byte that could not be written literally, so `%20` never occurs |
| `UrlQuote.QuoteSpace` | maps_tool.py:21 | a space is written as `+` |
| `UrlQuote.QuoteComma` | maps_tool.py:21 | a comma is written as `%2C` |
| `MapsTool.GoogleMapsLink` | maps_tool.py:13-22 | the link starts with the fixed search prefix, its query is canonical, and decoding the link gives back exactly the stripped address |
| `MapsTool.LinkIgnoresPadding` | maps_tool.py:21 | whitespace around the address does not change the link |
| `MapsTool.LinkInjective` | maps_tool.py:21-22 | two addresses give the same link only when they strip to the same text |
| `MapsTool.DocumentedLinkUnreachable` | maps_tool.py:17-22 | no address yields the documented example URL with `%20` for spaces |
| `Json.Get` | currency_tool.py:76 | `dict.get` finds a value exactly when the key is present, and the value is the last one stored under that key, as `json.loads` keeps for a repeated key |
| `Json.ToFloat` | currency_tool.py:136 | `float()` rejects null, lists and dicts, keeps numbers unchanged, turns a boolean into 1.0 or 0.0, and parses a string with Python's float syntax |
| `CurrencyTool.ClassifyCountriesReply` | currency_tool.py:59-94 | a status error is reported only for a non-200 reply; a currency is found only in a 200 reply whose body is a non-empty list led by a dict record whose `currencies` is a non-empty dict led by that code, with a dict entry for it |
| `CurrencyTool.FirstCurrency` | currency_tool.py:76-89 | a currency is found only in a dict record whose `currencies` is a non-empty dict led by that code with a dict entry, and its name is that entry's `name` or the empty string |
| `CurrencyTool.GetCurrencyForCountry` | currency_tool.py:38-94 | the result carries the stripped name and exactly one of a code and an error; a table hit answers with the table's code and name and no request; a miss makes exactly one RestCountries request for the stripped name |
| `CurrencyTool.CurrencyTableWellFormed` | currency_tool.py:17-31 | every table key is already normalised, so a lookup can reach it, and every code is three upper-case letters |
| `CurrencyTool.CurrencyCodesWellFormed` | currency_tool.py:18-30 | every code in the table is three upper-case letters |
| `CurrencyTool.LocalLookupInsensitive` | currency_tool.py:46-56 | a padded, upper-cased spelling of a table country gets the same local code and name, with no request |
| `CurrencyTool.RemoteLookupOutcomes` | currency_tool.py:58-94 | on a miss, each failure gives its own error: an exception, a non-200 status, an unparsable body, empty data, a first record that is not a dict, and a first record whose `currencies` is missing or falsy |
| `CurrencyTool.RemoteLookupFirstCurrencyWins` | currency_tool.py:76-89 | on a usable reply, the first listed currency is taken, with its name or the empty string, and the source `restcountries` |
| `CurrencyTool.RemoteCodeNeedsShape` | currency_tool.py:58-94 | the converse: on a miss, a code is answered only from a 200 reply of that success shape, with the source `restcountries`; every other shape raises in the source and gives an error |
| `CurrencyTool.CollectRates` | currency_tool.py:131-138 | the loop aborts exactly when some target's entry raises an uncaught exception; otherwise it keeps exactly the targets whose entries yield a rate, each with that rate |
| `CurrencyTool.EntryOutcomeOf` | currency_tool.py:132-138 | one loop iteration: `data` that is null, a boolean or a number raises out of the loop; a list or a string never yields a rate; a target code absent from a dict `data` is skipped, so a rate needs the code to be present as a key; `CurrencyTool.EntryTreatment` states the dict cases where the code is present |
| `CurrencyTool.RatesFromReply` | currency_tool.py:114-153 | the result always carries the base; `CurrencyTool.RatesMatchTargets` and `CurrencyTool.RatesSucceed` state what each reply gives |
| `CurrencyTool.GetExchangeRates` | currency_tool.py:97-153 | the base is the stripped upper-cased code; an error exactly when there are no rates; a provider exactly when there are rates; no request and `ApiKeyNotSet` without a key; otherwise one request for the four targets; a success is non-empty and holds only targets whose entries yield that rate |
| `CurrencyTool.CollectRatesIsMap` | currency_tool.py:131-138 | the loop's rates equal the map, over the codes, of every entry that yields a rate |
| `CurrencyTool.RatesMatchTargets` | currency_tool.py:129-148 | on a 200 reply with a dict body: an exception error exactly when some target entry raises, `NoValidRates` exactly when every target is skipped, and any rates returned are the map of the kept targets |
| `CurrencyTool.RatesSucceed` | currency_tool.py:139-148 | on a 200 reply with a dict body where no target entry raises and at least one yields a rate, the fetch succeeds: no error, the provider, and exactly the map of the kept targets |
| `CurrencyTool.NoneKeptIffEmpty` | currency_tool.py:139-143 | the collected rates are empty exactly when every code was skipped |
| `CurrencyTool.EntryTreatment` | currency_tool.py:133-138 | an entry that is not a dict aborts the fetch; a missing `value` gives 0.0; a null, list or dict `value` is skipped; a number is kept; a boolean gives 1.0 or 0.0; a string is kept when it parses and skipped otherwise |
| `CurrencyTool.BaseIsUpperCased` | currency_tool.py:104 | `" inr "` asks for base `INR` |
| `StockTool.ResolveProfileKey` | stock_tool.py:140-149 | a populated normalised key is returned as it is, and any other result is either the normalised key or a populated key |
| `StockTool.ResolveByNormalForm` | stock_tool.py:140-141 | two names with the same normalised form resolve to the same key |
| `StockTool.AliasKeysUnpopulated` | stock_tool.py:74-100 | the alias spellings hold no exchanges in the catalog, so the alias branches are reached |
| `StockTool.ConfiguredExchanges` | stock_tool.py:195-196 | a populated normalised key gives exactly its catalog entry, and a non-empty result comes from a populated resolved key |
| `StockTool.FetchLatestPrice` | stock_tool.py:152-164 | a price exactly when the history is non-empty, and then it is the last close |
| `StockTool.QuoteIndices` | stock_tool.py:207-216 | one quote per index, in order, each with the index's symbol and name and that symbol's latest price |
| `StockTool.ProfileExchanges` | stock_tool.py:205-219 | one profile per exchange, in order, copying the four text fields and quoting every index |
| `StockTool.GetCountryStockProfile` | stock_tool.py:167-224 | the result carries the stripped name; it has an error exactly when it lists no exchange; otherwise it mirrors every configured exchange of the resolved key, in order |
| `StockTool.StockCatalogKeysNormalized` | stock_tool.py:31-133 | every catalog key is already normalised |
| `StockTool.AliasesResolve` | stock_tool.py:144-148 | the United States aliases resolve to `united states`, and the United Kingdom aliases to `united kingdom` |
| `StockTool.PlaceholdersRedirect` | stock_tool.py:74-100 | every empty placeholder key resolves to a key with exchanges |
| `StockTool.ResolveIdempotent` | stock_tool.py:140-149 | resolving a resolved key changes nothing |
| `StockTool.UnitedStatesExchanges` | stock_tool.py:53-75 | every United States spelling is configured with NYSE then NASDAQ |
| `StockTool.UnitedKingdomExchanges` | stock_tool.py:88-100 | every United Kingdom spelling is configured with LSE alone |
| `StockTool.AliasMatchesCanonical` | stock_tool.py:194-196 | a United States alias gets exactly the two exchanges of `united states`, and a United Kingdom alias exactly the one exchange of `united kingdom` |
| `StockTool.UnknownCountry` | stock_tool.py:195-203 | a name that is neither a catalog key nor an alias gets no exchanges and an error |
| `StockTool.PriceLocality` | stock_tool.py:206-216 | each price depends only on the history of its own symbol |
| `Agent.RatesFor` | agent.py:56-62 | with a code, the result is the rate fetcher's answer for that code, with base the stripped upper-cased code and `ApiKeyNotSet` when there is no key; without a code, the result is the fixed error stand-in and no request is made; a rates request is made exactly when there is a code and a key |
| `Agent.MainHqAddress` | agent.py:68-73 | an address exactly when some exchange is listed, and then it is the first exchange's |
| `Agent.MapsLinkFor` | agent.py:74-75 | a link exactly for a non-empty address, and it decodes back to the stripped address |
| `Agent.BuildCountryFinancialProfile` | agent.py:45-84 | the profile, the currency and the stocks all carry the stripped name; the currency result is well formed; the stocks are the stock tool's answer for the stripped name; `Agent.ProfileRates` and `Agent.ProfileLink` state the other fields |
| `Agent.ProfileRates` | agent.py:51-62 | the profile's currency is the currency tool's answer for the stripped name; with a code, the rates are the rate fetcher's answer for it, with the stripped upper-cased code as base and `ApiKeyNotSet` when there is no key; without a code they are the error stand-in; a rates request is made exactly when there is a code and a key |
| `Agent.ProfileLink` | agent.py:67-75 | the address and link come from the first listed exchange; there is a link exactly when that address is non-empty |
| `Agent.IndiaProfile` | agent.py:45-84 | "India" gets INR from the table, NSE then BSE, and the link of NSE's address, whatever the services reply |
| `Agent.UnknownCountryProfile` | agent.py:45-84 | a country that neither table knows, with an error status from RestCountries, gets a status error, the rates stand-in, no exchanges, and no address or link |

## Left out

- `app.py` (the Streamlit page), `server.py` and the package's `__init__.py`
  are not part of this model. They are user interface and re-exports.
- `_get_llm` and `generate_llm_summary` in `agent.py` are not modelled.
  They choose and call a language model, which is a foreign service with
  free-form text output.
- HTTP details are not modelled: the URLs, the `fullText`/`fields` query
  parameters and the timeouts. A request records only what varies with the
  input: the country name, or the key, base and target list.
- `os.getenv("CURRENCY_API_KEY")` is the `apiKey` parameter. The `.env`
  loading is not modelled.
- `yfinance` is the `priceHistory` oracle: an exception, or the daily
  closes in order. `hist is None` and an empty frame are both the empty
  history. Price lookups are not recorded as requests.
- Floating-point numbers are Dafny reals. Python's `float()` on a string is
  the `parseFloat` oracle.
- PyText.Lower: only ASCII letters change case. Python's `lower()` also
  maps non-ASCII letters, so a non-ASCII spelling of a table country is not
  shown to hit the table.
- PyText.Upper: only ASCII letters change case. Python's `upper()` also
  maps non-ASCII letters (and expands some, such as `ß` to `SS`), so the
  base currency sent for a non-ASCII code is not modelled exactly.
- Strings holding lone surrogate code points cannot be written as Dafny
  strings, so the `UnicodeEncodeError` that `quote_plus` raises on them is
  not modelled.
- CurrencyTool.CollectRates: the rates are a Dafny map, which has no order.
  The insertion order of Python's dict (USD, INR, GBP, EUR) is not kept.
- Error message texts are error kinds. Only the 200-character cut of the
  currencyapi.com body and the status codes are kept as data.
- Json.Get: a JSON object is the member list in document order, and
  `json.loads` keeps the last value of a repeated key. Text-level JSON
  parsing is not modelled: a body that does not parse is a reply with no
  JSON.

=== FILE: agent.dfy ===
/** The profile aggregator: one fixed sequence over the three tools, with
    two data dependencies (currency code to exchange rates, first exchange
    to maps link) and branching on field presence only. */
module Agent {
  import opened Wrappers
  import opened Remote
  import opened PyText
  import opened CurrencyTool
  import opened StockTool
  import opened MapsTool

  /** The dictionary `build_country_financial_profile` returns: exactly the
      six keys below. */
  datatype CountryFinancialProfile = CountryFinancialProfile(
    country: string,
    currency: CurrencyInfo,
    exchangeRates: FxRates,
    stocks: CountryStocks,
    mainExchangeHqAddress: Option<string>,
    googleMapsLink: Option<string>)

  /** The stand-in for the rates when no currency code was found: an error
      and nothing else, not even a base currency. */
  const FxUnavailable := FxRates(None, None, None, Some(CurrencyUndetermined))

  predicate RequestsRates(requests: seq<Request>) {
    exists i | 0 <= i < |requests| :: requests[i].CurrencyApiLatest?
  }

  /** Step 2: the rate fetcher runs, with the resolved code, only when the
      currency result has one. */
  function RatesFor(currency: CurrencyInfo, services: Services, apiKey: Option<string>): (r: Traced<FxRates>)
    ensures currency.currencyCode.Some? ==>
              r.result.baseCurrency == Some(Upper(Strip(currency.currencyCode.value)))
    ensures currency.currencyCode.None? ==> r == Traced(FxUnavailable, [])
    ensures RequestsRates(r.requests) <==> currency.currencyCode.Some? && !ApiKeyMissing(apiKey)
    ensures currency.currencyCode.Some? ==>
              r == GetExchangeRates(currency.currencyCode.value, apiKey, services.currencyApi, services.parseFloat)
    ensures currency.currencyCode.Some? && ApiKeyMissing(apiKey) ==> r.result.error == Some(ApiKeyNotSet)
  {
    if currency.currencyCode.Some? then
      var r := GetExchangeRates(currency.currencyCode.value, apiKey, services.currencyApi, services.parseFloat);
      assert r.requests != [] ==> r.requests[0].CurrencyApiLatest?;
      r
    else Traced(FxUnavailable, [])
  }

  /** Step 4: the first configured exchange's address, when there is one. */
  function MainHqAddress(stocks: CountryStocks): (r: Option<string>)
    ensures r.Some? <==> |stocks.exchanges| > 0
    ensures r.Some? ==> r.value == stocks.exchanges[0].headquartersAddress
  {
    if |stocks.exchanges| > 0 then Some(stocks.exchanges[0].headquartersAddress) else None
  }

  /** Step 4: a link only for a non-empty address. */
  function MapsLinkFor(hq: Option<string>): (r: Option<string>)
    ensures r.Some? <==> hq.Some? && hq.value != ""
    ensures r.Some? ==> DecodeLink(r.value) == Some(Strip(hq.value))
  {
    if hq.Some? && hq.value != "" then Some(GoogleMapsLink(hq.value)) else None
  }

  lemma RequestsRatesConcat(a: seq<Request>, b: seq<Request>)
    requires forall i | 0 <= i < |a| :: !a[i].CurrencyApiLatest?
    ensures RequestsRates(a + b) <==> RequestsRates(b)
  {
    if RequestsRates(b) {
      var i :| 0 <= i < |b| && b[i].CurrencyApiLatest?;
      assert (a + b)[|a| + i] == b[i];
    }
  }

  /** `build_country_financial_profile`, with the environment's API key and
      the external services as inputs: the stripped name goes to both
      lookups, the currency code (when there is one) to the rate fetcher,
      and the first exchange's address (when there is one) to the link
      builder. The requests are the currency lookup's followed by the rate
      fetcher's. */
  function BuildCountryFinancialProfile(country: string, services: Services, apiKey: Option<string>)
    : (r: Traced<CountryFinancialProfile>)
    ensures var p := r.result;
            && p.country == Strip(country)
            && p.currency.country == Strip(country)
            && p.stocks.country == Strip(country)
            && WellFormedCurrencyInfo(p.currency)
    ensures r.result.stocks == GetCountryStockProfile(Strip(country), services.priceHistory)
  {
    var name := Strip(country);
    StripIdempotent(country);
    var currency := GetCurrencyForCountry(name, services.restCountries);
    var fx := RatesFor(currency.result, services, apiKey);
    var stocks := GetCountryStockProfile(name, services.priceHistory);
    var hq := MainHqAddress(stocks);
    var link := MapsLinkFor(hq);
    Traced(CountryFinancialProfile(name, currency.result, fx.result, stocks, hq, link),
           currency.requests + fx.requests)
  }

  /** The currency in the profile is the currency tool's answer for the
      stripped name, and the rates are the rate fetcher's answer for the
      resolved code; a rates request goes out exactly when a code was
      resolved and the API key is set. */
  lemma ProfileRates(country: string, services: Services, apiKey: Option<string>)
    ensures var r := BuildCountryFinancialProfile(country, services, apiKey);
            var p := r.result;
            && p.currency == GetCurrencyForCountry(Strip(country), services.restCountries).result
            && (p.currency.currencyCode.Some? ==>
                  p.exchangeRates == GetExchangeRates(p.currency.currencyCode.value, apiKey,
                                                      services.currencyApi, services.parseFloat).result)
            && (p.currency.currencyCode.Some? && ApiKeyMissing(apiKey) ==>
                  p.exchangeRates.error == Some(ApiKeyNotSet))
            && (p.currency.currencyCode.Some? ==>
                  p.exchangeRates.baseCurrency == Some(Upper(Strip(p.currency.currencyCode.value))))
            && (p.currency.currencyCode.None? ==> p.exchangeRates == FxUnavailable)
            && (RequestsRates(r.requests) <==> p.currency.currencyCode.Some? && !ApiKeyMissing(apiKey))
  {
    var currency := GetCurrencyForCountry(Strip(country), services.restCountries);
    var fx := RatesFor(currency.result, services, apiKey);
    RequestsRatesConcat(currency.requests, fx.requests);
  }

  /** The address and the link come from the first configured exchange, and
      there is a link exactly when that address is non-empty. */
  lemma ProfileLink(country: string, services: Services, apiKey: Option<string>)
    ensures var p := BuildCountryFinancialProfile(country, services, apiKey).result;
            && (|p.stocks.exchanges| == 0 ==> p.mainExchangeHqAddress.None? && p.googleMapsLink.None?)
            && (|p.stocks.exchanges| > 0 ==>
                  && p.mainExchangeHqAddress == Some(p.stocks.exchanges[0].headquartersAddress)
                  && (p.googleMapsLink.Some? <==> p.stocks.exchanges[0].headquartersAddress != ""))
            && (p.googleMapsLink.Some? ==>
                  p.googleMapsLink == Some(GoogleMapsLink(p.mainExchangeHqAddress.value)))
  {
  }

  lemma IndiaNormalizes()
    ensures Strip("India") == "India"
    ensures Normalize("India") == "india"
  {
    assert "India" == "" + "India" + "";
    StripUnique("", "India", "");
    var n := Lower("India");
    assert n[0] == 'i' && n[1] == 'n' && n[2] == 'd' && n[3] == 'i' && n[4] == 'a';
    assert n == "india";
  }

  lemma IndiaCurrency(restCountries: string -> Reply)
    ensures var r := GetCurrencyForCountry("India", restCountries);
            && r.requests == []
            && r.result.currencyCode == Some("INR")
            && r.result.source == Some(LocalMapping)
  {
    IndiaNormalizes();
  }

  lemma IndiaStocks(priceHistory: string -> History)
    ensures var s := GetCountryStockProfile("India", priceHistory);
            && |s.exchanges| == 2
            && s.exchanges[0].name == NSE.name
            && s.exchanges[0].headquartersAddress == NSE.headquartersAddress
            && s.exchanges[1].name == BSE.name
  {
    IndiaNormalizes();
    assert Populated("india");
    assert ConfiguredExchanges("India") == [NSE, BSE];
  }

  /** End to end for "India": the table gives INR without a lookup request,
      the catalog gives NSE then BSE, and the link is built from NSE's
      address, whatever the services reply. */
  lemma IndiaProfile(services: Services, apiKey: Option<string>)
    ensures var r := BuildCountryFinancialProfile("India", services, apiKey);
            && r.result.currency.currencyCode == Some("INR")
            && r.result.currency.source == Some(LocalMapping)
            && |r.result.stocks.exchanges| == 2
            && r.result.stocks.exchanges[0].name == NSE.name
            && r.result.stocks.exchanges[1].name == BSE.name
            && r.result.mainExchangeHqAddress == Some(NSE.headquartersAddress)
            && r.result.googleMapsLink == Some(GoogleMapsLink(NSE.headquartersAddress))
  {
    IndiaNormalizes();
    IndiaCurrency(services.restCountries);
    IndiaStocks(services.priceHistory);
    assert |NSE.headquartersAddress| > 0;
  }

  /** End to end for a country that neither table knows (such as
      "Atlantis") and whose lookup the service answers with an error
      status: a currency error, the fixed rates stand-in, no exchanges, and
      no address or link. */
  lemma UnknownCountryProfile(country: string, services: Services, apiKey: Option<string>)
    requires Normalize(country) !in CountryCurrencyMap
    requires Normalize(country) !in CountryStockProfile
    requires Normalize(country) !in {"great britain", "england"}
    requires services.restCountries(Strip(country)).Response?
    requires services.restCountries(Strip(country)).status != 200
    ensures var p := BuildCountryFinancialProfile(country, services, apiKey).result;
            && p.currency.error == Some(LookupStatus(services.restCountries(Strip(country)).status))
            && p.exchangeRates == FxUnavailable
            && p.stocks.exchanges == [] && p.stocks.error.Some?
            && p.mainExchangeHqAddress.None?
            && p.googleMapsLink.None?
  {
    var name := Strip(country);
    StripIdempotent(country);
    assert Normalize(name) == Normalize(country);
    assert GetCurrencyForCountry(name, services.restCountries).result.error
           == Some(LookupStatus(services.restCountries(name).status));
    UnknownCountry(name, services.priceHistory);
  }
}

=== FILE: currencytool.dfy ===
/** The currency tool: country to currency (a static table, then the
    RestCountries service) and currency to exchange rates (the
    currencyapi.com service). Every failure becomes an `error` field. */
module CurrencyTool {
  import opened Wrappers
  import opened Json
  import opened Remote
  import opened PyText

  datatype Currency = Currency(code: string, name: string)

  /** `COUNTRY_CURRENCY_MAP`. */
  const CountryCurrencyMap: map<string, Currency> := map[
    "india" := Currency("INR", "Indian Rupee"),
    "united states" := Currency("USD", "United States Dollar"),
    "united states of america" := Currency("USD", "United States Dollar"),
    "usa" := Currency("USD", "United States Dollar"),
    "japan" := Currency("JPY", "Japanese Yen"),
    "united kingdom" := Currency("GBP", "Pound Sterling"),
    "uk" := Currency("GBP", "Pound Sterling"),
    "great britain" := Currency("GBP", "Pound Sterling"),
    "south korea" := Currency("KRW", "South Korean Won"),
    "republic of korea" := Currency("KRW", "South Korean Won"),
    "korea, republic of" := Currency("KRW", "South Korean Won"),
    "china" := Currency("CNY", "Chinese Yuan Renminbi"),
    "people's republic of china" := Currency("CNY", "Chinese Yuan Renminbi")
  ]

  /** An ISO 4217 style code: three upper-case ASCII letters. */
  predicate IsCurrencyCode(code: string) {
    |code| == 3 && forall i | 0 <= i < 3 :: 'A' <= code[i] <= 'Z'
  }

  datatype Source = LocalMapping | RestCountries

  /** The distinct causes behind the `error` text of a currency result. */
  datatype CurrencyError =
    | LookupStatus(status: int)
    | NoCountryData
    | NoCurrencyInfo
    | LookupException

  /** The dictionary `get_currency_for_country` returns; an absent key is
      None. A currency name found remotely is whatever JSON value the
      service sent. */
  datatype CurrencyInfo = CurrencyInfo(
    country: string,
    currencyName: Option<Json>,
    currencyCode: Option<string>,
    source: Option<Source>,
    error: Option<CurrencyError>)

  /** Exactly one of `currency_code` and `error` is present, and the name
      and source come with the code. */
  predicate WellFormedCurrencyInfo(info: CurrencyInfo) {
    && (info.currencyCode.Some? != info.error.Some?)
    && (info.currencyCode.Some? ==> info.currencyName.Some? && info.source.Some?)
    && (info.error.Some? ==> info.currencyName.None? && info.source.None?)
  }

  /** What a RestCountries reply says: the first listed currency with its
      name, or why there is none. */
  datatype Lookup = Found(code: string, name: Json) | Failed(why: CurrencyError)

  /** The `try` block of the remote fallback. Python operations that would
      raise on an unexpected JSON shape (`data[0]` on a dict or string,
      `.get` or `.items()` on a non-dict) end in `LookupException`, as the
      `except Exception` clause makes them. */
  function ClassifyCountriesReply(reply: Reply): (r: Lookup)
    ensures r.Failed? && r.why.LookupStatus? ==> reply.Response? && reply.status != 200
    ensures r.Found? ==>
              && reply.Response? && reply.status == 200
              && reply.json.Some? && reply.json.value.JArr? && |reply.json.value.items| > 0
              && reply.json.value.items[0].JObj?
              && CurrencyShape(reply.json.value.items[0].members, r.code)
  {
    match reply
    case Raised => Failed(LookupException)
    case Response(status, _, json) =>
      if status != 200 then Failed(LookupStatus(status))
      else if json.None? then Failed(LookupException)
      else if !Truthy(json.value) then Failed(NoCountryData)
      else if !json.value.JArr? then Failed(LookupException)
      else FirstCurrency(json.value.items[0])
  }

  /** The members of a record from which `code` can be read without an
      exception: `currencies` is a non-empty dict whose first key is `code`
      and whose entry for `code` is itself a dict. */
  predicate CurrencyShape(fields: seq<(string, Json)>, code: string) {
    var c := GetOr(fields, "currencies", JNull);
    && c.JObj? && |c.members| > 0
    && c.members[0].0 == code
    && Get(c.members, code).Some? && Get(c.members, code).value.JObj?
  }

  /** `data[0].get("currencies") or {}` and the first entry of that mapping,
      with its `name` defaulting to the empty string. */
  function FirstCurrency(record: Json): (r: Lookup)
    ensures r.Found? ==> record.JObj? && CurrencyShape(record.members, r.code)
    ensures r.Found? ==> r.name == GetOr(Get(GetOr(record.members, "currencies", JNull).members, r.code).value.members,
                                         "name", JStr(""))
  {
    if !record.JObj? then Failed(LookupException)
    else
      var currencies := GetOr(record.members, "currencies", JNull);
      if !Truthy(currencies) then Failed(NoCurrencyInfo)
      else if !currencies.JObj? then Failed(LookupException)
      else
        var code := currencies.members[0].0;
        assert HasKey(currencies.members, code);
        var info := Get(currencies.members, code).value;
        if !info.JObj? then Failed(LookupException)
        else Found(code, GetOr(info.members, "name", JStr("")))
  }

  /** `get_currency_for_country`: a normalised table hit answers locally
      with no request; a miss asks RestCountries once, by the stripped name.
      The result always carries the stripped country and exactly one of a
      code and an error. */
  function GetCurrencyForCountry(country: string, restCountries: string -> Reply): (r: Traced<CurrencyInfo>)
    ensures r.result.country == Strip(country)
    ensures WellFormedCurrencyInfo(r.result)
    ensures Normalize(country) in CountryCurrencyMap ==>
              && r.requests == []
              && r.result.currencyCode == Some(CountryCurrencyMap[Normalize(country)].code)
              && r.result.currencyName == Some(JStr(CountryCurrencyMap[Normalize(country)].name))
              && r.result.source == Some(LocalMapping)
    ensures Normalize(country) !in CountryCurrencyMap ==>
              && r.requests == [RestCountriesByName(Strip(country))]
              && r.result.source != Some(LocalMapping)
  {
    var name := Strip(country);
    var norm := Normalize(country);
    if norm in CountryCurrencyMap then
      var m := CountryCurrencyMap[norm];
      Traced(CurrencyInfo(name, Some(JStr(m.name)), Some(m.code), Some(LocalMapping), None), [])
    else
      var info := match ClassifyCountriesReply(restCountries(name))
        case Found(code, cname) => CurrencyInfo(name, Some(cname), Some(code), Some(RestCountries), None)
        case Failed(why) => CurrencyInfo(name, None, None, None, Some(why));
      Traced(info, [RestCountriesByName(name)])
  }

  /** Every key of the table is already normalised, so a lookup can hit
      it, and every code is three upper-case letters. */
  lemma CurrencyTableWellFormed()
    ensures forall k | k in CountryCurrencyMap :: IsNormalized(k)
    ensures forall k | k in CountryCurrencyMap :: IsCurrencyCode(CountryCurrencyMap[k].code)
  {
    CurrencyKeysNormalized();
    CurrencyCodesWellFormed();
  }

  lemma CurrencyCodesWellFormed()
    ensures forall k | k in CountryCurrencyMap :: IsCurrencyCode(CountryCurrencyMap[k].code)
  {
    assert IsCurrencyCode("INR") && IsCurrencyCode("USD") && IsCurrencyCode("JPY");
    assert IsCurrencyCode("GBP") && IsCurrencyCode("KRW") && IsCurrencyCode("CNY");
    forall k | k in CountryCurrencyMap
      ensures CountryCurrencyMap[k].code in {"INR", "USD", "JPY", "GBP", "KRW", "CNY"}
    {
    }
  }

  lemma CurrencyKeysNormalized()
    ensures forall k | k in CountryCurrencyMap :: IsNormalized(k)
  {
    KeysNormalizedA();
    KeysNormalizedB();
    KeysNormalizedC();
    assert CountryCurrencyMap.Keys == {
      "india", "united states", "united states of america", "usa", "japan",
      "united kingdom", "uk", "great britain", "south korea", "republic of korea",
      "korea, republic of", "china", "people's republic of china"};
  }

  // The keys are checked in three groups so that each proof stays small.
  lemma KeysNormalizedA()
    ensures IsNormalized("india") && IsNormalized("united states")
    ensures IsNormalized("united states of america") && IsNormalized("usa")
    ensures IsNormalized("japan")
  {
  }

  lemma KeysNormalizedB()
    ensures IsNormalized("united kingdom") && IsNormalized("uk")
    ensures IsNormalized("great britain") && IsNormalized("south korea")
  {
  }

  lemma KeysNormalizedC()
    ensures IsNormalized("republic of korea") && IsNormalized("korea, republic of")
    ensures IsNormalized("china") && IsNormalized("people's republic of china")
  {
  }

  /** A table hit survives any change of case and any surrounding
      whitespace: the padded, upper-cased name gets the same local answer,
      with no request. */
  lemma LocalLookupInsensitive(a: string, p: string, q: string, restCountries: string -> Reply)
    requires Normalize(a) in CountryCurrencyMap
    requires AllSpace(p) && AllSpace(q)
    ensures var r := GetCurrencyForCountry(p + Upper(a) + q, restCountries);
            && r.requests == []
            && r.result.source == Some(LocalMapping)
            && r.result.currencyCode == GetCurrencyForCountry(a, restCountries).result.currencyCode
            && r.result.currencyName == GetCurrencyForCountry(a, restCountries).result.currencyName
  {
    NormalizeInsensitive(p, Upper(a), q);
    NormalizeInsensitive("", a, "");
  }

  /** How a table miss is answered, by the shape of the RestCountries
      reply: every failure is a distinct error, and a usable reply gives
      its first currency with source `restcountries` and a name defaulting
      to the empty string. */
  lemma RemoteLookupOutcomes(country: string, restCountries: string -> Reply,
                             records: seq<Json>, fields: seq<(string, Json)>)
    requires Normalize(country) !in CountryCurrencyMap
    ensures var reply := restCountries(Strip(country));
            var info := GetCurrencyForCountry(country, restCountries).result;
            && (reply.Raised? ==> info.error == Some(LookupException))
            && (reply.Response? && reply.status != 200 ==> info.error == Some(LookupStatus(reply.status)))
            && (reply.Response? && reply.status == 200 && reply.json.None? ==> info.error == Some(LookupException))
            && (reply.Response? && reply.status == 200 && reply.json.Some? && !Truthy(reply.json.value) ==>
                  info.error == Some(NoCountryData))
            && (reply.Response? && reply.status == 200 && reply.json == Some(JArr(records))
                && |records| > 0 && !records[0].JObj? ==>
                  info.error == Some(LookupException))
            && (reply.Response? && reply.status == 200 && reply.json == Some(JArr(records))
                && |records| > 0 && records[0] == JObj(fields)
                && !Truthy(GetOr(fields, "currencies", JNull)) ==>
                  info.error == Some(NoCurrencyInfo))
  {
  }

  /** The success case of a remote lookup: a non-empty list whose first
      record lists currencies as a mapping yields the first of them. */
  lemma RemoteLookupFirstCurrencyWins(country: string, restCountries: string -> Reply,
                                      records: seq<Json>, fields: seq<(string, Json)>,
                                      entries: seq<(string, Json)>, info: seq<(string, Json)>)
    requires Normalize(country) !in CountryCurrencyMap
    requires restCountries(Strip(country)).Response?
    requires restCountries(Strip(country)).status == 200
    requires restCountries(Strip(country)).json == Some(JArr(records))
    requires |records| > 0 && records[0] == JObj(fields)
    requires Get(fields, "currencies") == Some(JObj(entries)) && |entries| > 0
    requires Get(entries, entries[0].0) == Some(JObj(info))
    ensures var r := GetCurrencyForCountry(country, restCountries).result;
            && r.currencyCode == Some(entries[0].0)
            && r.currencyName == Some(if HasKey(info, "name") then Get(info, "name").value else JStr(""))
            && r.source == Some(RestCountries)
            && r.error.None?
  {
  }

  /** The converse of `RemoteLookupFirstCurrencyWins`: a code found for a
      name the table does not know comes only from a 200 reply whose body is
      a non-empty list, whose first record is a dict, and whose `currencies`
      is a non-empty dict led by that code with a dict entry; every other
      shape raises in the source and ends in an error. */
  lemma RemoteCodeNeedsShape(country: string, restCountries: string -> Reply)
    requires Normalize(country) !in CountryCurrencyMap
    ensures var reply := restCountries(Strip(country));
            var info := GetCurrencyForCountry(country, restCountries).result;
            info.currencyCode.Some? ==>
              && reply.Response? && reply.status == 200
              && reply.json.Some? && reply.json.value.JArr? && |reply.json.value.items| > 0
              && reply.json.value.items[0].JObj?
              && CurrencyShape(reply.json.value.items[0].members, info.currencyCode.value)
              && info.source == Some(RestCountries)
  {
  }

  /** The fixed targets of `get_exchange_rates_for_currency`, in order. */
  const TargetCurrencies: seq<string> := ["USD", "INR", "GBP", "EUR"]

  /** `",".join(target_currencies)`, as sent to the provider. */
  const TargetParameter := "USD,INR,GBP,EUR"

  const RatesProvider := "currencyapi.com"

  /** The distinct causes behind the `error` text of a rates result.
      `CurrencyUndetermined` is produced by the aggregator, not by the rate
      fetcher. */
  datatype FxError =
    | ApiKeyNotSet
    | RatesStatus(status: int, body: string)
    | NoValidRates
    | RatesException
    | CurrencyUndetermined

  /** The dictionary `get_exchange_rates_for_currency` returns (and the
      aggregator's stand-in for it); an absent key is None. */
  datatype FxRates = FxRates(
    baseCurrency: Option<string>,
    rates: Option<map<string, real>>,
    provider: Option<string>,
    error: Option<FxError>)

  /** What the loop body does with one target code: the code raises an
      exception that escapes to the outer `except` (aborting the whole
      fetch), is skipped, or yields a rate. */
  datatype EntryOutcome = Escape | Skip | Keep(rate: real)

  /** One iteration of the loop over the target codes, for the `data`
      member of the payload. `code in data` raises on `None`, a number or a
      boolean; on a list or a string it may hold, but indexing those by a
      string raises `TypeError`, which the inner `except` turns into a skip.
      On a dict, an entry that is not itself a dict has no `.get` and the
      `AttributeError` escapes; an entry without `value` counts as 0.0; a
      value `float()` rejects is skipped. */
  function EntryOutcomeOf(data: Json, code: string, parse: string -> Option<real>): (r: EntryOutcome)
    ensures r.Keep? ==> data.JObj? && HasKey(data.members, code)
    ensures data.JObj? && !HasKey(data.members, code) ==> r == Skip
    ensures data.JArr? || data.JStr? ==> r == Skip
    ensures data.JNull? || data.JBool? || data.JNum? ==> r == Escape
  {
    match data
    case JObj(ms) =>
      if !HasKey(ms, code) then Skip
      else (
        match Get(ms, code).value
        case JObj(entry) =>
          (match ToFloat(GetOr(entry, "value", JNum(0.0)), parse)
           case None => Skip
           case Some(x) => Keep(x))
        case _ => Escape)
    case JArr(_) => Skip
    case JStr(_) => Skip
    case _ => Escape
  }

  /** The loop over `codes`: None when some iteration escapes, otherwise
      the rates of exactly the codes whose entries yield one. */
  function CollectRates(data: Json, codes: seq<string>, parse: string -> Option<real>): (r: Option<map<string, real>>)
    ensures r.None? <==> exists i | 0 <= i < |codes| :: EntryOutcomeOf(data, codes[i], parse).Escape?
    ensures r.Some? ==> forall c | c in r.value ::
              c in codes && EntryOutcomeOf(data, c, parse) == Keep(r.value[c])
    ensures r.Some? ==> forall i | 0 <= i < |codes| && EntryOutcomeOf(data, codes[i], parse).Keep? ::
              codes[i] in r.value
    decreases |codes|
  {
    if |codes| == 0 then Some(map[])
    else
      var rest := CollectRates(data, codes[1..], parse);
      assert forall i | 1 <= i < |codes| :: codes[i] == codes[1..][i - 1];
      match EntryOutcomeOf(data, codes[0], parse)
      case Escape => None
      case Skip => rest
      case Keep(x) => if rest.None? then None else Some(rest.value[codes[0] := x])
  }

  /** What a reply from the rates provider turns into. */
  function RatesFromReply(base: string, reply: Reply, parse: string -> Option<real>): (r: FxRates)
    ensures r.baseCurrency == Some(base)
  {
    match reply
    case Raised => FxRates(Some(base), None, None, Some(RatesException))
    case Response(status, text, json) =>
      if status != 200 then
        FxRates(Some(base), None, None, Some(RatesStatus(status, text[..if |text| < 200 then |text| else 200])))
      else if json.None? || !json.value.JObj? then
        FxRates(Some(base), None, None, Some(RatesException))
      else
        var data := GetOr(json.value.members, "data", JObj([]));
        match CollectRates(data, TargetCurrencies, parse)
        case None => FxRates(Some(base), None, None, Some(RatesException))
        case Some(rates) =>
          if |rates| == 0 then FxRates(Some(base), None, None, Some(NoValidRates))
          else FxRates(Some(base), Some(rates), Some(RatesProvider), None)
  }

  /** `if not api_key`: unset or empty. */
  predicate ApiKeyMissing(apiKey: Option<string>) {
    apiKey.None? || apiKey.value == ""
  }

  /** `get_exchange_rates_for_currency`. The base is always the stripped,
      upper-cased code; without a key nothing is requested; otherwise one
      request is made for the four targets, and a success carries only
      target codes the provider's `data` holds, each with a value `float()`
      accepts (or 0.0 when the entry has none). */
  function GetExchangeRates(currencyCode: string, apiKey: Option<string>,
                            currencyApi: (string, string) -> Reply,
                            parse: string -> Option<real>): (r: Traced<FxRates>)
    ensures r.result.baseCurrency == Some(Upper(Strip(currencyCode)))
    ensures r.result.error.Some? <==> r.result.rates.None?
    ensures r.result.rates.Some? <==> r.result.provider == Some(RatesProvider)
    ensures ApiKeyMissing(apiKey) ==> r.requests == [] && r.result.error == Some(ApiKeyNotSet)
    ensures !ApiKeyMissing(apiKey) ==>
              r.requests == [CurrencyApiLatest(apiKey.value, Upper(Strip(currencyCode)), TargetParameter)]
    ensures r.result.rates.Some? ==>
              var reply := currencyApi(apiKey.value, Upper(Strip(currencyCode)));
              && !ApiKeyMissing(apiKey)
              && reply.Response? && reply.status == 200
              && reply.json.Some? && reply.json.value.JObj?
              && |r.result.rates.value| > 0
              && forall c | c in r.result.rates.value ::
                   && c in TargetCurrencies
                   && EntryOutcomeOf(GetOr(reply.json.value.members, "data", JObj([])), c, parse)
                      == Keep(r.result.rates.value[c])
  {
    var base := Upper(Strip(currencyCode));
    if ApiKeyMissing(apiKey) then
      Traced(FxRates(Some(base), None, None, Some(ApiKeyNotSet)), [])
    else
      Traced(RatesFromReply(base, currencyApi(apiKey.value, base), parse),
             [CurrencyApiLatest(apiKey.value, base, TargetParameter)])
  }

  /** The loop's rates are the map comprehension over the codes. */
  lemma CollectRatesIsMap(data: Json, codes: seq<string>, parse: string -> Option<real>)
    requires CollectRates(data, codes, parse).Some?
    ensures CollectRates(data, codes, parse).value ==
              map c | c in codes && EntryOutcomeOf(data, c, parse).Keep? :: EntryOutcomeOf(data, c, parse).rate
  {
    var m := CollectRates(data, codes, parse).value;
    var e := map c | c in codes && EntryOutcomeOf(data, c, parse).Keep? :: EntryOutcomeOf(data, c, parse).rate;
    forall c | c in codes && EntryOutcomeOf(data, c, parse).Keep?
      ensures c in m
    {
      var i :| 0 <= i < |codes| && codes[i] == c;
    }
    assert m.Keys == e.Keys;
  }

  /** The partner of the loop: on a usable reply, the rates are exactly the
      map, over the four targets, of the entries that yield a rate; the
      result is an error exactly when an entry escapes or none yields one. */
  lemma RatesMatchTargets(currencyCode: string, apiKey: Option<string>,
                          currencyApi: (string, string) -> Reply, parse: string -> Option<real>,
                          members: seq<(string, Json)>)
    requires !ApiKeyMissing(apiKey)
    requires currencyApi(apiKey.value, Upper(Strip(currencyCode))).Response?
    requires currencyApi(apiKey.value, Upper(Strip(currencyCode))).status == 200
    requires currencyApi(apiKey.value, Upper(Strip(currencyCode))).json == Some(JObj(members))
    ensures var data := GetOr(members, "data", JObj([]));
            var r := GetExchangeRates(currencyCode, apiKey, currencyApi, parse).result;
            && (r.error == Some(RatesException) <==>
                  exists c | c in TargetCurrencies :: EntryOutcomeOf(data, c, parse).Escape?)
            && (r.error == Some(NoValidRates) <==>
                  forall c | c in TargetCurrencies :: EntryOutcomeOf(data, c, parse).Skip?)
            && (r.rates.Some? ==>
                  (r.rates.value == map c | c in TargetCurrencies && EntryOutcomeOf(data, c, parse).Keep?
                                      :: EntryOutcomeOf(data, c, parse).rate))
  {
    var base := Upper(Strip(currencyCode));
    var data := GetOr(members, "data", JObj([]));
    var m := CollectRates(data, TargetCurrencies, parse);
    var r := GetExchangeRates(currencyCode, apiKey, currencyApi, parse).result;
    assert r == RatesFromReply(base, currencyApi(apiKey.value, base), parse);
    if m.Some? {
      assert forall i | 0 <= i < |TargetCurrencies| :: TargetCurrencies[i] in TargetCurrencies;
      CollectRatesIsMap(data, TargetCurrencies, parse);
      NoneKeptIffEmpty(data, TargetCurrencies, parse);
    }
  }

  /** Partial success: on a usable reply where no target entry raises and
      at least one yields a rate, the fetch succeeds with exactly the map of
      the kept targets and the provider, and no error. */
  lemma RatesSucceed(currencyCode: string, apiKey: Option<string>,
                     currencyApi: (string, string) -> Reply, parse: string -> Option<real>,
                     members: seq<(string, Json)>)
    requires !ApiKeyMissing(apiKey)
    requires currencyApi(apiKey.value, Upper(Strip(currencyCode))).Response?
    requires currencyApi(apiKey.value, Upper(Strip(currencyCode))).status == 200
    requires currencyApi(apiKey.value, Upper(Strip(currencyCode))).json == Some(JObj(members))
    ensures var data := GetOr(members, "data", JObj([]));
            var r := GetExchangeRates(currencyCode, apiKey, currencyApi, parse).result;
            (forall c | c in TargetCurrencies :: !EntryOutcomeOf(data, c, parse).Escape?)
            && (exists c | c in TargetCurrencies :: EntryOutcomeOf(data, c, parse).Keep?) ==>
              && r.error.None?
              && r.provider == Some(RatesProvider)
              && r.rates == Some(map c | c in TargetCurrencies && EntryOutcomeOf(data, c, parse).Keep?
                                   :: EntryOutcomeOf(data, c, parse).rate)
  {
    var data := GetOr(members, "data", JObj([]));
    if (forall c | c in TargetCurrencies :: !EntryOutcomeOf(data, c, parse).Escape?)
       && (exists c | c in TargetCurrencies :: EntryOutcomeOf(data, c, parse).Keep?) {
      RatesMatchTargets(currencyCode, apiKey, currencyApi, parse, members);
      assert forall i | 0 <= i < |TargetCurrencies| :: TargetCurrencies[i] in TargetCurrencies;
      var m := CollectRates(data, TargetCurrencies, parse);
      assert m.Some?;
      NoneKeptIffEmpty(data, TargetCurrencies, parse);
    }
  }

  lemma NoneKeptIffEmpty(data: Json, codes: seq<string>, parse: string -> Option<real>)
    requires CollectRates(data, codes, parse).Some?
    ensures |CollectRates(data, codes, parse).value| == 0 <==>
              forall c | c in codes :: EntryOutcomeOf(data, c, parse).Skip?
  {
    var m := CollectRates(data, codes, parse).value;
    if forall c | c in codes :: EntryOutcomeOf(data, c, parse).Skip? {
      assert m.Keys == {};
    } else {
      var c :| c in codes && !EntryOutcomeOf(data, c, parse).Skip?;
      var i :| 0 <= i < |codes| && codes[i] == c;
      assert c in m;
    }
  }

  /** How single entries of `data` are treated: an entry that is not a dict
      aborts the fetch; an entry lacking `value` gives 0.0; a `value` that
      `float()` rejects (null, a list, a dict, a string it cannot parse) is
      skipped without failing the fetch; a parsable string and a boolean are
      kept as the number `float()` makes of them. */
  lemma EntryTreatment(ms: seq<(string, Json)>, code: string, entry: Json, v: Json,
                       parse: string -> Option<real>)
    requires Get(ms, code) == Some(entry)
    ensures !entry.JObj? ==> EntryOutcomeOf(JObj(ms), code, parse) == Escape
    ensures entry.JObj? && !HasKey(entry.members, "value") ==>
              EntryOutcomeOf(JObj(ms), code, parse) == Keep(0.0)
    ensures entry.JObj? && Get(entry.members, "value") == Some(v) ==>
              && (v.JNull? || v.JArr? || v.JObj? ==> EntryOutcomeOf(JObj(ms), code, parse) == Skip)
              && (v.JNum? ==> EntryOutcomeOf(JObj(ms), code, parse) == Keep(v.n))
              && (v.JBool? ==> EntryOutcomeOf(JObj(ms), code, parse) == Keep(if v.b then 1.0 else 0.0))
              && (v.JStr? ==> EntryOutcomeOf(JObj(ms), code, parse)
                              == if parse(v.s).Some? then Keep(parse(v.s).value) else Skip)
  {
  }

  /** The base is normalised whatever the casing: "inr" asks for "INR". */
  lemma BaseIsUpperCased(apiKey: Option<string>, currencyApi: (string, string) -> Reply,
                         parse: string -> Option<real>)
    ensures GetExchangeRates(" inr ", apiKey, currencyApi, parse).result.baseCurrency == Some("INR")
  {
    assert " inr " == " " + "inr" + " ";
    StripUnique(" ", "inr", " ");
    var u := Upper("inr");
    assert u[0] == 'I' && u[1] == 'N' && u[2] == 'R';
    assert u == "INR";
  }
}

=== FILE: json.dfy ===
/** Decoded JSON values as Python's `json` module hands them to the tools,
    with the few Python operations the tools apply to them: truthiness,
    `dict.get`, and `float(...)`. Numbers are kept as opaque reals. */
module Json {
  import opened Wrappers

  /** An object keeps its members in document order, as a Python `dict`
      built by `json.loads` iterates them. */
  datatype Json =
    | JNull
    | JBool(b: bool)
    | JNum(n: real)
    | JStr(s: string)
    | JArr(items: seq<Json>)
    | JObj(members: seq<(string, Json)>)

  /** Python truthiness: `None`, `False`, zero and empty containers are
      false. */
  predicate Truthy(j: Json) {
    match j
    case JNull => false
    case JBool(b) => b
    case JNum(n) => n != 0.0
    case JStr(s) => |s| > 0
    case JArr(xs) => |xs| > 0
    case JObj(ms) => |ms| > 0
  }

  predicate HasKey(ms: seq<(string, Json)>, k: string) {
    exists i | 0 <= i < |ms| :: ms[i].0 == k
  }

  /** `d.get(k)`: when a key occurs more than once, `json.loads` keeps the
      last value. */
  function Get(ms: seq<(string, Json)>, k: string): (r: Option<Json>)
    ensures r.Some? <==> HasKey(ms, k)
    ensures r.Some? ==> exists i | 0 <= i < |ms| ::
              ms[i] == (k, r.value) && forall j | i < j < |ms| :: ms[j].0 != k
    decreases |ms|
  {
    if |ms| == 0 then None
    else if ms[|ms| - 1].0 == k then Some(ms[|ms| - 1].1)
    else
      var r := Get(ms[..|ms| - 1], k);
      assert forall i | 0 <= i < |ms| - 1 :: ms[..|ms| - 1][i] == ms[i];
      r
  }

  /** `d.get(k, default)`. */
  function GetOr(ms: seq<(string, Json)>, k: string, default: Json): Json {
    Get(ms, k).GetOr(default)
  }

  /** Python's `float(v)` for a JSON value: numbers convert, booleans give
      1.0 or 0.0, a string goes through `parse` (Python's float syntax,
      left abstract), and `None`, lists and dicts raise. */
  function ToFloat(v: Json, parse: string -> Option<real>): (r: Option<real>)
    ensures v.JNull? || v.JArr? || v.JObj? ==> r.None?
    ensures v.JNum? ==> r == Some(v.n)
    ensures v.JBool? ==> r == Some(if v.b then 1.0 else 0.0)
    ensures v.JStr? ==> r == parse(v.s)
  {
    match v
    case JNull => None
    case JBool(b) => Some(if b then 1.0 else 0.0)
    case JNum(n) => Some(n)
    case JStr(s) => parse(s)
    case JArr(_) => None
    case JObj(_) => None
  }
}

=== FILE: mapstool.dfy ===
/** The address-to-URL builder of the maps tool: strip the address, apply
    `quote_plus`, append to a fixed Google Maps search prefix. */
module MapsTool {
  import opened Wrappers
  import PyText
  import UrlQuote
  import Utf8

  const SearchPrefix := "https://www.google.com/maps/search/?api=1&query="

  /** `get_google_maps_link_for_address`. The link starts with the search
      prefix, its query is in canonical quoted form, and it decodes back to
      exactly the stripped address. */
  function GoogleMapsLink(address: string): (r: string)
    ensures |r| >= |SearchPrefix| && r[..|SearchPrefix|] == SearchPrefix
    ensures UrlQuote.IsCanonicalQuery(r[|SearchPrefix|..])
    ensures DecodeLink(r) == Some(PyText.Strip(address))
  {
    var q := UrlQuote.QuotePlus(PyText.Strip(address));
    var r := SearchPrefix + q;
    assert r[..|SearchPrefix|] == SearchPrefix && r[|SearchPrefix|..] == q;
    UrlQuote.QuotePlusCanonical(PyText.Strip(address));
    UrlQuote.QuotePlusRoundTrip(PyText.Strip(address));
    r
  }

  /** The partner of `GoogleMapsLink`: the address a search link asks for,
      or None when the text is not such a link. */
  function DecodeLink(url: string): Option<string> {
    if |url| >= |SearchPrefix| && url[..|SearchPrefix|] == SearchPrefix then
      match UrlQuote.UnquotePlus(url[|SearchPrefix|..])
      case None => None
      case Some(bs) => Utf8.Decode(bs)
    else None
  }

  /** Whitespace around the address does not change the link. */
  lemma LinkIgnoresPadding(p: string, a: string, q: string)
    requires PyText.AllSpace(p) && PyText.AllSpace(q)
    ensures GoogleMapsLink(p + a + q) == GoogleMapsLink(a)
  {
    PyText.StripIgnoresPadding(p, a, q);
  }

  /** Distinct stripped addresses give distinct links. */
  lemma LinkInjective(a: string, b: string)
    requires GoogleMapsLink(a) == GoogleMapsLink(b)
    ensures PyText.Strip(a) == PyText.Strip(b)
  {
  }

  /** The URL shown as the example output in the function's documentation,
      which writes each space as `%20`. The query is assembled from short
      pieces because the verifier reasons about the characters of short
      literals more readily than about one long literal. */
  const DocumentedLink := SearchPrefix + DocumentedQuery
  const DocumentedQuery := "11" + "%20Wall" + "%20St%2C" + "%20New" + "%20York%2C" + "%20NY" + "%2010005%2C" + "%20USA"

  /** No address produces the documented example URL: the code writes a
      space as `+`, and `%20` never occurs in a canonical query. */
  lemma DocumentedLinkUnreachable(address: string)
    ensures GoogleMapsLink(address) != DocumentedLink
  {
    var n := |SearchPrefix|;
    var q := DocumentedLink[n..];
    assert q == DocumentedQuery;
    assert q[2] == '%' && q[3] == '2' && q[4] == '0';
    assert UrlQuote.HexPair('2', '0') == UrlQuote.SpaceByte;
    assert !UrlQuote.CanonicalEscapeAt(q, 2);
    assert !UrlQuote.IsCanonicalQuery(q);
  }
}

=== FILE: pytext.dfy ===
/** The parts of Python's `str` behaviour the tools rely on: `strip()`,
    `lower()` and `upper()`, and the `_normalize_country` helper built from
    them. `strip()` removes exactly the characters for which Python's
    `str.isspace()` holds; case mapping is modelled for ASCII letters only. */
module PyText {

  /** Python's `str.isspace()`: the ASCII controls 0x09-0x0D and 0x1C-0x1F,
      the space, and the Unicode separators Python treats as whitespace. */
  predicate IsSpace(c: char) {
    var n := c as int;
    || 0x09 <= n <= 0x0D || 0x1C <= n <= 0x20
    || n == 0x85 || n == 0xA0 || n == 0x1680
    || 0x2000 <= n <= 0x200A
    || n == 0x2028 || n == 0x2029 || n == 0x202F || n == 0x205F || n == 0x3000
  }

  predicate AllSpace(s: string) {
    forall i | 0 <= i < |s| :: IsSpace(s[i])
  }

  /** Neither the first nor the last character is whitespace. */
  predicate Trimmed(s: string) {
    |s| == 0 || (!IsSpace(s[0]) && !IsSpace(s[|s| - 1]))
  }

  /** The scan from the left in CPython's `strip`: the first index at or
      after `i` that holds a non-whitespace character, or `|s|`. */
  function LeftEnd(s: string, i: nat): (r: nat)
    requires i <= |s|
    ensures i <= r <= |s|
    ensures forall k | i <= k < r :: IsSpace(s[k])
    ensures r < |s| ==> !IsSpace(s[r])
    decreases |s| - i
  {
    if i < |s| && IsSpace(s[i]) then LeftEnd(s, i + 1) else i
  }

  /** The scan from the right, which never moves below `lo`: the least
      index `r` in `lo..j` such that `s[r..j]` is all whitespace. */
  function RightEnd(s: string, lo: nat, j: nat): (r: nat)
    requires lo <= j <= |s|
    ensures lo <= r <= j
    ensures forall k | r <= k < j :: IsSpace(s[k])
    ensures r > lo ==> !IsSpace(s[r - 1])
    decreases j
  {
    if j > lo && IsSpace(s[j - 1]) then RightEnd(s, lo, j - 1) else j
  }

  /** `s.strip()`. */
  function Strip(s: string): (r: string)
    ensures Trimmed(r)
    ensures |r| <= |s|
  {
    var l := LeftEnd(s, 0);
    s[l..RightEnd(s, l, |s|)]
  }

  /** Every string is its stripped form with whitespace on either side. */
  lemma StripSplit(s: string) returns (w1: string, w2: string)
    ensures s == w1 + Strip(s) + w2
    ensures AllSpace(w1) && AllSpace(w2)
  {
    var l := LeftEnd(s, 0);
    var r := RightEnd(s, l, |s|);
    w1 := s[..l];
    w2 := s[r..];
    assert s == s[..l] + s[l..r] + s[r..];
  }

  /** The stripped form is unique: whitespace around a trimmed string is
      exactly what `strip()` removes. */
  lemma StripUnique(w1: string, t: string, w2: string)
    requires AllSpace(w1) && AllSpace(w2) && Trimmed(t)
    ensures Strip(w1 + t + w2) == t
  {
    var s := w1 + t + w2;
    var l := LeftEnd(s, 0);
    if |t| == 0 {
      assert forall k | 0 <= k < |s| :: IsSpace(s[k]) by {
        forall k | 0 <= k < |s| ensures IsSpace(s[k]) {
          if k < |w1| { assert s[k] == w1[k]; } else { assert s[k] == w2[k - |w1|]; }
        }
      }
      assert l == |s|;
    } else {
      assert s[|w1|] == t[0];
      assert forall k | 0 <= k < |w1| :: s[k] == w1[k];
      assert l == |w1|;
      var r := RightEnd(s, l, |s|);
      assert s[|w1| + |t| - 1] == t[|t| - 1];
      assert forall k | |w1| + |t| <= k < |s| :: s[k] == w2[k - |w1| - |t|];
      assert r == |w1| + |t|;
      assert s[l..r] == t;
    }
  }

  /** Surrounding whitespace is irrelevant to `strip()`. */
  lemma StripIgnoresPadding(p: string, a: string, q: string)
    requires AllSpace(p) && AllSpace(q)
    ensures Strip(p + a + q) == Strip(a)
  {
    var w1, w2 := StripSplit(a);
    assert p + a + q == (p + w1) + Strip(a) + (w2 + q);
    StripUnique(p + w1, Strip(a), w2 + q);
  }

  lemma StripIdempotent(s: string)
    ensures Strip(Strip(s)) == Strip(s)
  {
    assert "" + Strip(s) + "" == Strip(s);
    StripUnique("", Strip(s), "");
  }

  function LowerChar(c: char): char {
    if 'A' <= c <= 'Z' then (c as int + 32) as char else c
  }

  function UpperChar(c: char): char {
    if 'a' <= c <= 'z' then (c as int - 32) as char else c
  }

  /** A character-by-character mapping of a string. */
  function MapChars(f: char -> char, s: string): (r: string)
    ensures |r| == |s|
    ensures forall i | 0 <= i < |s| :: r[i] == f(s[i])
  {
    seq(|s|, i requires 0 <= i < |s| => f(s[i]))
  }

  /** `s.lower()`, ASCII letters only: no upper-case letter is left, each
      one becomes its lower-case letter, and every other character stays. */
  function Lower(s: string): (r: string)
    ensures |r| == |s|
    ensures forall i | 0 <= i < |r| :: !('A' <= r[i] <= 'Z')
    ensures forall i | 0 <= i < |s| ::
              if 'A' <= s[i] <= 'Z' then r[i] as int == s[i] as int + 32 else r[i] == s[i]
  {
    MapChars(LowerChar, s)
  }

  /** `s.upper()`, ASCII letters only: no lower-case letter is left, each
      one becomes its upper-case letter, and every other character stays. */
  function Upper(s: string): (r: string)
    ensures |r| == |s|
    ensures forall i | 0 <= i < |r| :: !('a' <= r[i] <= 'z')
    ensures forall i | 0 <= i < |s| ::
              if 'a' <= s[i] <= 'z' then r[i] as int == s[i] as int - 32 else r[i] == s[i]
  {
    MapChars(UpperChar, s)
  }

  /** `_normalize_country`, identical in the currency and stock tools. */
  function Normalize(country: string): (r: string)
    ensures |r| <= |country|
    ensures Trimmed(r)
  {
    var t := Strip(country);
    var n := Lower(t);
    assert |n| > 0 ==> n[0] == LowerChar(t[0]) && n[|n| - 1] == LowerChar(t[|t| - 1]);
    n
  }

  /** A normalised key: no surrounding whitespace and no upper-case letter. */
  predicate IsNormalized(k: string) {
    Trimmed(k) && forall i | 0 <= i < |k| :: !('A' <= k[i] <= 'Z')
  }

  lemma NormalizeYieldsNormalized(s: string)
    ensures IsNormalized(Normalize(s))
  {
    var t := Strip(s);
    var n := Lower(t);
    assert |n| > 0 ==> n[0] == LowerChar(t[0]) && n[|n| - 1] == LowerChar(t[|t| - 1]);
  }

  /** A normalised key is a fixed point of `_normalize_country`. */
  lemma NormalizeFixesNormalized(k: string)
    requires IsNormalized(k)
    ensures Normalize(k) == k
  {
    assert "" + k + "" == k;
    StripUnique("", k, "");
    assert Lower(k) == k;
  }

  lemma NormalizeIdempotent(s: string)
    ensures Normalize(Normalize(s)) == Normalize(s)
  {
    NormalizeYieldsNormalized(s);
    NormalizeFixesNormalized(Normalize(s));
  }

  lemma MapCharsConcat(f: char -> char, a: string, b: string)
    ensures MapChars(f, a + b) == MapChars(f, a) + MapChars(f, b)
  {
  }

  /** A character mapping under which a character is whitespace exactly
      when its image is, as ASCII case mapping is. */
  predicate KeepsSpace(f: char -> char) {
    forall c :: IsSpace(f(c)) == IsSpace(c)
  }

  /** Such a mapping commutes with `strip()`. */
  lemma StripMapChars(f: char -> char, s: string)
    requires KeepsSpace(f)
    ensures Strip(MapChars(f, s)) == MapChars(f, Strip(s))
  {
    var w1, w2 := StripSplit(s);
    var t := Strip(s);
    MapCharsConcat(f, w1, t);
    MapCharsConcat(f, w1 + t, w2);
    var m1, mt, m2 := MapChars(f, w1), MapChars(f, t), MapChars(f, w2);
    assert AllSpace(m1) && AllSpace(m2);
    assert Trimmed(mt);
    StripUnique(m1, mt, m2);
  }

  lemma StripUpper(s: string)
    ensures Strip(Upper(s)) == Upper(Strip(s))
  {
    StripMapChars(UpperChar, s);
  }

  lemma StripLower(s: string)
    ensures Strip(Lower(s)) == Lower(Strip(s))
  {
    StripMapChars(LowerChar, s);
  }

  lemma LowerAbsorbsCase(s: string)
    ensures Lower(Upper(s)) == Lower(s)
    ensures Lower(Lower(s)) == Lower(s)
  {
    assert forall i | 0 <= i < |s| :: Lower(Upper(s))[i] == LowerChar(UpperChar(s[i]));
  }

  /** Country lookup keys are insensitive to case and surrounding
      whitespace. */
  lemma NormalizeInsensitive(p: string, a: string, q: string)
    requires AllSpace(p) && AllSpace(q)
    ensures Normalize(p + a + q) == Normalize(a)
    ensures Normalize(Upper(a)) == Normalize(a)
    ensures Normalize(Lower(a)) == Normalize(a)
  {
    StripIgnoresPadding(p, a, q);
    StripUpper(a);
    StripLower(a);
    LowerAbsorbsCase(Strip(a));
  }
}

=== FILE: remote.dfy ===
/** The network boundary. Every HTTP call the tools make is replaced by an
    oracle that returns the reply, and every tool result is paired with the
    requests it issued, so that "no request was made" can be stated. */
module Remote {
  import opened Wrappers
  import opened Json

  /** What `requests.get` yields: it raises (connection failure, timeout),
      or returns a status, the body text, and the body parsed as JSON (None
      when `resp.json()` would raise). */
  datatype Reply =
    | Raised
    | Response(status: int, text: string, json: Option<Json>)

  /** The outgoing requests, with the parameters the tools send. */
  datatype Request =
    | RestCountriesByName(name: string)
    | CurrencyApiLatest(apiKey: string, baseCurrency: string, currencies: string)

  /** A tool result together with the requests issued to produce it. */
  datatype Traced<T> = Traced(result: T, requests: seq<Request>)

  /** What the market-data provider's daily history yields for a symbol: it
      raises, or returns the closing prices of the period, oldest first (an
      empty sequence when there is no history). */
  datatype History = HistoryRaised | Closes(closes: seq<real>)

  /** The external services, as functions of what is asked of them:
      `restCountries` by the name in the URL path, `currencyApi` by API key
      and base currency, `priceHistory` by symbol, and `parseFloat` for
      Python's `float(str)`. */
  datatype Services = Services(
    restCountries: string -> Reply,
    currencyApi: (string, string) -> Reply,
    priceHistory: string -> History,
    parseFloat: string -> Option<real>)
}

=== FILE: stocktool.dfy ===
/** The stock tool: a static catalog of exchanges and their indices per
    country, alias resolution onto the catalog's keys, and the enrichment
    of each index with its latest price from the market-data provider. */
module StockTool {
  import opened Wrappers
  import opened Remote
  import opened PyText

  datatype StockIndex = StockIndex(symbol: string, name: string)

  datatype StockExchange = StockExchange(
    name: string,
    city: string,
    country: string,
    headquartersAddress: string,
    indices: seq<StockIndex>)

  const NSE := StockExchange(
    "National Stock Exchange of India (NSE)", "Mumbai", "India",
    "Exchange Plaza, Bandra Kurla Complex, Bandra East, Mumbai, Maharashtra 400051, India",
    [StockIndex("^NSEI", "Nifty 50"), StockIndex("^CNX100", "Nifty 100")])

  const BSE := StockExchange(
    "Bombay Stock Exchange (BSE)", "Mumbai", "India",
    "Phiroze Jeejeebhoy Towers, Dalal Street, Fort, Mumbai, Maharashtra 400001, India",
    [StockIndex("^BSESN", "BSE Sensex")])

  const NYSE := StockExchange(
    "New York Stock Exchange (NYSE)", "New York", "United States",
    "11 Wall St, New York, NY 10005, USA",
    [StockIndex("^GSPC", "S&P 500"), StockIndex("^DJI", "Dow Jones Industrial Average")])

  const NASDAQ := StockExchange(
    "NASDAQ Stock Market", "New York", "United States",
    "151 W 42nd St, New York, NY 10036, USA",
    [StockIndex("^IXIC", "NASDAQ Composite")])

  const TSE := StockExchange(
    "Tokyo Stock Exchange (TSE)", "Tokyo", "Japan",
    "2-1 Nihonbashi Kabutocho, Chuo City, Tokyo 103-8224, Japan",
    [StockIndex("^N225", "Nikkei 225"), StockIndex("^TOPX", "TOPIX")])

  const LSE := StockExchange(
    "London Stock Exchange (LSE)", "London", "United Kingdom",
    "10 Paternoster Square, London EC4M 7LS, United Kingdom",
    [StockIndex("^FTSE", "FTSE 100"), StockIndex("^FTMC", "FTSE 250")])

  const KRX := StockExchange(
    "Korea Exchange (KRX) - Stock Market Division", "Seoul", "South Korea",
    "76 Yeouinaru-ro, Yeongdeungpo-gu, Seoul, South Korea",
    [StockIndex("^KS11", "KOSPI"), StockIndex("^KQ11", "KOSDAQ")])

  const SSE := StockExchange(
    "Shanghai Stock Exchange (SSE)", "Shanghai", "China",
    "528 Pudong South Road, Pudong, Shanghai, China",
    [StockIndex("000001.SS", "SSE Composite Index")])

  const SZSE := StockExchange(
    "Shenzhen Stock Exchange (SZSE)", "Shenzhen", "China",
    "2012 Shennan Blvd, Futian District, Shenzhen, Guangdong, China",
    [StockIndex("399001.SZ", "SZSE Component Index")])

  /** `COUNTRY_STOCK_PROFILE`, including its three empty placeholder
      entries. */
  const CountryStockProfile: map<string, seq<StockExchange>> := map[
    "india" := [NSE, BSE],
    "united states" := [NYSE, NASDAQ],
    "usa" := [],
    "united states of america" := [],
    "japan" := [TSE],
    "united kingdom" := [LSE],
    "uk" := [],
    "south korea" := [KRX],
    "china" := [SSE, SZSE]
  ]

  /** A key under which the catalog holds at least one exchange. */
  predicate Populated(key: string) {
    key in CountryStockProfile && |CountryStockProfile[key]| > 0
  }

  /** `_resolve_profile_key`: a populated normalised key wins; otherwise the
      United States and United Kingdom aliases are redirected; otherwise the
      normalised key is returned as it is. */
  function ResolveProfileKey(country: string): (r: string)
    ensures Populated(Normalize(country)) ==> r == Normalize(country)
    ensures r == Normalize(country) || Populated(r)
  {
    KeyFor(Normalize(country))
  }

  /** The body of `_resolve_profile_key` once the name is normalised. */
  function KeyFor(norm: string): string {
    if Populated(norm) then norm
    else if norm == "usa" || norm == "united states of america" then "united states"
    else if norm == "uk" || norm == "great britain" || norm == "england" then "united kingdom"
    else norm
  }

  /** `_fetch_latest_price`: the last close of the symbol's daily history,
      or None when the history is empty or the provider raised. */
  function FetchLatestPrice(priceHistory: string -> History, symbol: string): (r: Option<real>)
    ensures r.Some? <==> priceHistory(symbol).Closes? && |priceHistory(symbol).closes| > 0
    ensures r.Some? ==> r.value == priceHistory(symbol).closes[|priceHistory(symbol).closes| - 1]
  {
    match priceHistory(symbol)
    case HistoryRaised => None
    case Closes(closes) => if |closes| == 0 then None else Some(closes[|closes| - 1])
  }

  datatype IndexQuote = IndexQuote(symbol: string, name: string, lastPrice: Option<real>)

  datatype ExchangeProfile = ExchangeProfile(
    name: string,
    city: string,
    country: string,
    headquartersAddress: string,
    indices: seq<IndexQuote>)

  datatype StockError = NoProfileConfigured

  /** The dictionary `get_country_stock_profile` returns; an absent `error`
      is None. */
  datatype CountryStocks = CountryStocks(
    country: string,
    exchanges: seq<ExchangeProfile>,
    error: Option<StockError>)

  /** `q` is the output entry for catalog index `idx`: same symbol and
      name, and the price the provider gives for that symbol alone. */
  predicate QuotesIndex(q: IndexQuote, idx: StockIndex, priceHistory: string -> History) {
    && q.symbol == idx.symbol
    && q.name == idx.name
    && q.lastPrice == FetchLatestPrice(priceHistory, idx.symbol)
  }

  /** `p` is the output entry for catalog exchange `ex`: its four text
      fields copied, and its indices quoted one for one, in order. */
  predicate ProfilesExchange(p: ExchangeProfile, ex: StockExchange, priceHistory: string -> History) {
    && p.name == ex.name
    && p.city == ex.city
    && p.country == ex.country
    && p.headquartersAddress == ex.headquartersAddress
    && |p.indices| == |ex.indices|
    && forall j | 0 <= j < |ex.indices| :: QuotesIndex(p.indices[j], ex.indices[j], priceHistory)
  }

  /** The inner loop over an exchange's indices. */
  function QuoteIndices(indices: seq<StockIndex>, priceHistory: string -> History): (r: seq<IndexQuote>)
    ensures |r| == |indices|
    ensures forall j | 0 <= j < |indices| :: QuotesIndex(r[j], indices[j], priceHistory)
    decreases |indices|
  {
    if |indices| == 0 then []
    else
      var idx := indices[0];
      [IndexQuote(idx.symbol, idx.name, FetchLatestPrice(priceHistory, idx.symbol))]
        + QuoteIndices(indices[1..], priceHistory)
  }

  /** The outer loop over the configured exchanges. */
  function ProfileExchanges(exchanges: seq<StockExchange>, priceHistory: string -> History): (r: seq<ExchangeProfile>)
    ensures |r| == |exchanges|
    ensures forall i | 0 <= i < |exchanges| :: ProfilesExchange(r[i], exchanges[i], priceHistory)
    decreases |exchanges|
  {
    if |exchanges| == 0 then []
    else
      var ex := exchanges[0];
      [ExchangeProfile(ex.name, ex.city, ex.country, ex.headquartersAddress,
                       QuoteIndices(ex.indices, priceHistory))]
        + ProfileExchanges(exchanges[1..], priceHistory)
  }

  /** `COUNTRY_STOCK_PROFILE.get(key, [])` for the resolved key. */
  function ConfiguredExchanges(country: string): (r: seq<StockExchange>)
    ensures Populated(Normalize(country)) ==> r == CountryStockProfile[Normalize(country)]
    ensures |r| > 0 ==> Populated(ResolveProfileKey(country))
  {
    var key := ResolveProfileKey(country);
    if key in CountryStockProfile then CountryStockProfile[key] else []
  }

  /** `get_country_stock_profile`. The result has an error exactly when it
      lists no exchange; otherwise it lists every configured exchange, in
      catalog order, each mirrored by `ProfilesExchange`. */
  function GetCountryStockProfile(country: string, priceHistory: string -> History): (r: CountryStocks)
    ensures r.country == Strip(country)
    ensures r.error.Some? <==> |r.exchanges| == 0
    ensures |r.exchanges| == |ConfiguredExchanges(country)|
    ensures forall i | 0 <= i < |r.exchanges| ::
              ProfilesExchange(r.exchanges[i], ConfiguredExchanges(country)[i], priceHistory)
  {
    var exchanges := ConfiguredExchanges(country);
    if |exchanges| == 0 then CountryStocks(Strip(country), [], Some(NoProfileConfigured))
    else CountryStocks(Strip(country), ProfileExchanges(exchanges, priceHistory), None)
  }

  lemma CanonicalKeysNormalized()
    ensures Normalize("united states") == "united states"
    ensures Normalize("united kingdom") == "united kingdom"
  {
    assert IsNormalized("united states") && IsNormalized("united kingdom");
    NormalizeFixesNormalized("united states");
    NormalizeFixesNormalized("united kingdom");
  }

  /** Every catalog key is already normalised, so a lookup can reach it. */
  lemma StockCatalogKeysNormalized()
    ensures forall k | k in CountryStockProfile :: IsNormalized(k)
  {
    PopulatedKeysNormalized();
    PlaceholderKeysNormalized();
    assert CountryStockProfile.Keys == {
      "india", "united states", "usa", "united states of america", "japan",
      "united kingdom", "uk", "south korea", "china"};
  }

  // The keys are checked in two groups so that each proof stays small.
  lemma PopulatedKeysNormalized()
    ensures IsNormalized("india") && IsNormalized("united states") && IsNormalized("japan")
    ensures IsNormalized("united kingdom") && IsNormalized("south korea") && IsNormalized("china")
  {
  }

  lemma PlaceholderKeysNormalized()
    ensures IsNormalized("usa") && IsNormalized("united states of america") && IsNormalized("uk")
  {
  }

  /** The catalog facts alias resolution depends on: the United States and
      United Kingdom spellings other than the canonical keys hold no
      exchanges. */
  lemma AliasKeysUnpopulated()
    ensures !Populated("usa") && !Populated("united states of america") && !Populated("uk")
    ensures "great britain" !in CountryStockProfile && "england" !in CountryStockProfile
  {
    assert CountryStockProfile["usa"] == [];
    assert CountryStockProfile["united states of america"] == [];
    assert CountryStockProfile["uk"] == [];
  }

  /** The alias precedence: the United States and United Kingdom aliases
      land on the canonical keys. */
  lemma AliasesResolve(country: string)
    ensures Normalize(country) in {"usa", "united states of america"} ==>
              ResolveProfileKey(country) == "united states"
    ensures Normalize(country) in {"uk", "great britain", "england"} ==>
              ResolveProfileKey(country) == "united kingdom"
  {
    AliasKeysUnpopulated();
    var norm := Normalize(country);
    if norm in {"usa", "united states of america", "uk", "great britain", "england"} {
      assert !Populated(norm);
    }
  }

  /** No empty placeholder shadows its country: each catalog key with an
      empty list resolves to a key with exchanges. */
  lemma PlaceholdersRedirect()
    ensures forall k | k in CountryStockProfile && |CountryStockProfile[k]| == 0 ::
              Populated(ResolveProfileKey(k))
  {
    PlaceholderKeysNormalized();
    CanonicalKeysNormalized();
    NormalizeFixesNormalized("usa");
    NormalizeFixesNormalized("united states of america");
    NormalizeFixesNormalized("uk");
    AliasesResolve("usa");
    AliasesResolve("united states of america");
    AliasesResolve("uk");
    forall k | k in CountryStockProfile && |CountryStockProfile[k]| == 0
      ensures k in {"usa", "united states of america", "uk"}
    {
    }
  }

  /** Resolution sees only the normalised name. */
  lemma ResolveByNormalForm(a: string, b: string)
    requires Normalize(a) == Normalize(b)
    ensures ResolveProfileKey(a) == ResolveProfileKey(b)
  {
  }

  /** Resolving a resolved key changes nothing. */
  lemma ResolveIdempotent(country: string)
    ensures ResolveProfileKey(ResolveProfileKey(country)) == ResolveProfileKey(country)
  {
    var r := ResolveProfileKey(country);
    if r == Normalize(country) {
      NormalizeYieldsNormalized(country);
      NormalizeFixesNormalized(r);
      ResolveByNormalForm(r, country);
    } else if r == "united states" {
      CanonicalKeysNormalized();
      assert Populated("united states");
    } else {
      assert r == "united kingdom";
      CanonicalKeysNormalized();
      assert Populated("united kingdom");
    }
  }

  /** The catalog entry every United States spelling ends up at. */
  lemma UnitedStatesExchanges(country: string)
    requires Normalize(country) in {"united states", "usa", "united states of america"}
    ensures ConfiguredExchanges(country) == [NYSE, NASDAQ]
  {
    AliasesResolve(country);
  }

  /** The catalog entry every United Kingdom spelling ends up at. */
  lemma UnitedKingdomExchanges(country: string)
    requires Normalize(country) in {"united kingdom", "uk", "great britain", "england"}
    ensures ConfiguredExchanges(country) == [LSE]
  {
    AliasesResolve(country);
    assert Populated("united kingdom");
  }

  /** An alias gets exactly the canonical country's exchanges: two for the
      United States, one for the United Kingdom. */
  lemma AliasMatchesCanonical(country: string, priceHistory: string -> History)
    ensures Normalize(country) in {"usa", "united states of america"} ==>
              && GetCountryStockProfile(country, priceHistory).exchanges
                 == GetCountryStockProfile("united states", priceHistory).exchanges
              && |GetCountryStockProfile(country, priceHistory).exchanges| == 2
    ensures Normalize(country) in {"uk", "great britain", "england"} ==>
              && GetCountryStockProfile(country, priceHistory).exchanges
                 == GetCountryStockProfile("united kingdom", priceHistory).exchanges
              && |GetCountryStockProfile(country, priceHistory).exchanges| == 1
  {
    CanonicalKeysNormalized();
    if Normalize(country) in {"usa", "united states of america"} {
      UnitedStatesExchanges(country);
      UnitedStatesExchanges("united states");
    }
    if Normalize(country) in {"uk", "great britain", "england"} {
      UnitedKingdomExchanges(country);
      UnitedKingdomExchanges("united kingdom");
    }
  }

  /** A country neither in the catalog nor an alias gets no exchanges and
      an error. */
  lemma UnknownCountry(country: string, priceHistory: string -> History)
    requires Normalize(country) !in CountryStockProfile
    requires Normalize(country) !in {"great britain", "england"}
    ensures GetCountryStockProfile(country, priceHistory).exchanges == []
    ensures GetCountryStockProfile(country, priceHistory).error == Some(NoProfileConfigured)
  {
  }

  /** Each price depends on its own symbol's history only: two providers
      that agree on that symbol give the same quote, whatever they say
      about every other symbol. */
  lemma PriceLocality(country: string, h1: string -> History, h2: string -> History, i: nat, j: nat)
    requires i < |ConfiguredExchanges(country)|
    requires j < |ConfiguredExchanges(country)[i].indices|
    requires h1(ConfiguredExchanges(country)[i].indices[j].symbol)
             == h2(ConfiguredExchanges(country)[i].indices[j].symbol)
    ensures GetCountryStockProfile(country, h1).exchanges[i].indices[j]
            == GetCountryStockProfile(country, h2).exchanges[i].indices[j]
  {
  }
}

=== FILE: urlquote.dfy ===
/** `urllib.parse.quote_plus` with its default arguments (`safe=''`, UTF-8):
    the string is encoded to UTF-8 and every byte is quoted on its own. The
    bytes of the unreserved set of section 2.3 of RFC 3986 (ALPHA, DIGIT,
    `-`, `.`, `_`, `~`) are kept, the space byte becomes `+` as in HTML form
    encoding, and every other byte becomes `%` followed by two upper-case
    hexadecimal digits (percent-encoding, section 2.1 of RFC 3986).
    `UnquotePlus` is the partner decoder used to state the round trip. */
module UrlQuote {
  import opened Wrappers
  import Utf8

  type byte = Utf8.byte

  const SpaceByte: byte := 0x20

  predicate IsUnreservedChar(c: char) {
    || 'A' <= c <= 'Z' || 'a' <= c <= 'z' || '0' <= c <= '9'
    || c == '_' || c == '.' || c == '-' || c == '~'
  }

  predicate IsUnreservedByte(b: byte) {
    IsUnreservedChar(b as char)
  }

  predicate IsUpperHexDigit(c: char) {
    '0' <= c <= '9' || 'A' <= c <= 'F'
  }

  function HexDigit(n: int): (c: char)
    requires 0 <= n < 16
    ensures IsUpperHexDigit(c)
  {
    if n < 10 then ('0' as int + n) as char else ('A' as int + n - 10) as char
  }

  /** The value of one hexadecimal digit, either case; None for any other
      character. */
  function HexValue(c: char): (r: Option<int>)
    ensures r.Some? ==> 0 <= r.value < 16
    ensures IsUpperHexDigit(c) ==> r.Some?
  {
    if '0' <= c <= '9' then Some(c as int - '0' as int)
    else if 'A' <= c <= 'F' then Some(c as int - 'A' as int + 10)
    else if 'a' <= c <= 'f' then Some(c as int - 'a' as int + 10)
    else None
  }

  lemma HexValueOfDigit(n: int)
    requires 0 <= n < 16
    ensures HexValue(HexDigit(n)) == Some(n)
  {
  }

  /** The byte written by the two upper-case hexadecimal digits `hi lo`. */
  function HexPair(hi: char, lo: char): byte
    requires IsUpperHexDigit(hi) && IsUpperHexDigit(lo)
  {
    16 * HexValue(hi).value + HexValue(lo).value
  }

  /** How one byte is written in the query. */
  function QuoteByte(b: byte): (r: string)
    ensures |r| == 1 || |r| == 3
    ensures |r| == 1 <==> (IsUnreservedByte(b) || b == SpaceByte)
    ensures |r| == 3 ==> r[0] == '%' && IsUpperHexDigit(r[1]) && IsUpperHexDigit(r[2])
                         && HexPair(r[1], r[2]) == b
    ensures |r| == 1 ==> UnquoteChar(r[0]) == Some(b)
  {
    if IsUnreservedByte(b) then [b as char]
    else if b == SpaceByte then "+"
    else
      HexValueOfDigit(b / 16);
      HexValueOfDigit(b % 16);
      ['%', HexDigit(b / 16), HexDigit(b % 16)]
  }

  function QuoteBytes(bs: seq<byte>): (r: string)
    ensures |r| >= |bs|
  {
    if |bs| == 0 then "" else QuoteByte(bs[0]) + QuoteBytes(bs[1..])
  }

  /** `quote_plus(s)`: in canonical form, and the partner decoder gives back
      the UTF-8 bytes of `s`. */
  function QuotePlus(s: string): (r: string)
    ensures IsCanonicalQuery(r)
    ensures UnquotePlus(r) == Some(Utf8.Encode(s))
  {
    QuoteBytesCanonical(Utf8.Encode(s));
    UnquoteQuoteBytes(Utf8.Encode(s));
    QuoteBytes(Utf8.Encode(s))
  }

  /** The byte a single (non-`%`) query character stands for. */
  function UnquoteChar(c: char): Option<byte> {
    if c == '+' then Some(SpaceByte)
    else if IsUnreservedChar(c) then Some(c as int)
    else None
  }

  /** The partner of `QuoteBytes`, in the manner of `unquote_plus` but
      strict: `+` is a space, `%XX` is the byte XX, an unreserved character
      is itself, and anything else (a stray `%`, a reserved character) is
      rejected. */
  function UnquotePlus(q: string): (r: Option<seq<byte>>)
    decreases |q|
  {
    if |q| == 0 then Some([])
    else if q[0] == '%' then
      if |q| >= 3 && HexValue(q[1]).Some? && HexValue(q[2]).Some? then
        match UnquotePlus(q[3..])
        case None => None
        case Some(t) => Some([16 * HexValue(q[1]).value + HexValue(q[2]).value] + t)
      else None
    else
      match UnquoteChar(q[0])
      case None => None
      case Some(b) =>
        match UnquotePlus(q[1..])
        case None => None
        case Some(t) => Some([b] + t)
  }

  /** Decoding one quoted byte in front of any suffix. */
  lemma UnquoteQuoteByte(b: byte, rest: string)
    ensures UnquotePlus(QuoteByte(b) + rest) ==
            match UnquotePlus(rest)
            case None => None
            case Some(t) => Some([b] + t)
  {
    var e := QuoteByte(b);
    var q := e + rest;
    assert q[0] == e[0];
    if |e| == 3 {
      assert q[1] == e[1] && q[2] == e[2];
      assert q[3..] == rest;
    } else {
      assert q[1..] == rest;
    }
  }

  /** Round trip on bytes: unquoting the quoted bytes gives them back. */
  lemma {:induction false} UnquoteQuoteBytes(bs: seq<byte>)
    ensures UnquotePlus(QuoteBytes(bs)) == Some(bs)
    decreases |bs|
  {
    if |bs| > 0 {
      UnquoteQuoteByte(bs[0], QuoteBytes(bs[1..]));
      UnquoteQuoteBytes(bs[1..]);
      assert [bs[0]] + bs[1..] == bs;
    }
  }

  /** Round trip on text: unquoting then UTF-8 decoding `quote_plus(s)`
      gives `s` back. */
  lemma QuotePlusRoundTrip(s: string)
    ensures UnquotePlus(QuotePlus(s)) == Some(Utf8.Encode(s))
    ensures Utf8.Decode(UnquotePlus(QuotePlus(s)).value) == Some(s)
  {
    UnquoteQuoteBytes(Utf8.Encode(s));
    Utf8.DecodeEncode(s);
  }

  lemma QuotePlusInjective(s: string, t: string)
    requires QuotePlus(s) == QuotePlus(t)
    ensures s == t
  {
    QuotePlusRoundTrip(s);
    QuotePlusRoundTrip(t);
  }

  /** A `%` at index `i` opens an escape of two upper-case hexadecimal
      digits, and the escaped byte is one that could not have been written
      literally: neither unreserved nor the space. */
  predicate CanonicalEscapeAt(q: string, i: int)
    requires 0 <= i < |q|
  {
    && i + 2 < |q|
    && IsUpperHexDigit(q[i + 1]) && IsUpperHexDigit(q[i + 2])
    && !IsUnreservedByte(HexPair(q[i + 1], q[i + 2]))
    && HexPair(q[i + 1], q[i + 2]) != SpaceByte
  }

  /** The shape of every `quote_plus` output: only unreserved characters,
      `+` and `%`, and every `%` opens a canonical escape. */
  predicate IsCanonicalQuery(q: string) {
    && (forall i | 0 <= i < |q| :: IsUnreservedChar(q[i]) || q[i] == '+' || q[i] == '%')
    && (forall i | 0 <= i < |q| && q[i] == '%' :: CanonicalEscapeAt(q, i))
  }

  lemma CanonicalConcat(a: string, b: string)
    requires IsCanonicalQuery(a) && IsCanonicalQuery(b)
    ensures IsCanonicalQuery(a + b)
  {
    var q := a + b;
    forall i | 0 <= i < |q| && q[i] == '%'
      ensures CanonicalEscapeAt(q, i)
    {
      if i < |a| {
        assert a[i] == '%' && CanonicalEscapeAt(a, i);
        assert q[i + 1] == a[i + 1] && q[i + 2] == a[i + 2];
      } else {
        var j := i - |a|;
        assert b[j] == '%' && CanonicalEscapeAt(b, j);
        assert q[i + 1] == b[j + 1] && q[i + 2] == b[j + 2];
      }
    }
    assert forall i | 0 <= i < |q| :: q[i] == (if i < |a| then a[i] else b[i - |a|]);
  }

  lemma QuoteByteCanonical(b: byte)
    ensures IsCanonicalQuery(QuoteByte(b))
  {
    var e := QuoteByte(b);
    if |e| == 3 {
      assert e[0] == '%' && CanonicalEscapeAt(e, 0);
    }
  }

  lemma {:induction false} QuoteBytesCanonical(bs: seq<byte>)
    ensures IsCanonicalQuery(QuoteBytes(bs))
    decreases |bs|
  {
    if |bs| > 0 {
      QuoteByteCanonical(bs[0]);
      QuoteBytesCanonical(bs[1..]);
      CanonicalConcat(QuoteByte(bs[0]), QuoteBytes(bs[1..]));
    }
  }

  /** Every `quote_plus` output is canonical; in particular a space is
      never written as `%20`. */
  lemma QuotePlusCanonical(s: string)
    ensures IsCanonicalQuery(QuotePlus(s))
  {
    QuoteBytesCanonical(Utf8.Encode(s));
  }

  /** An ASCII character is quoted on its own: kept when unreserved, `+`
      for the space, `%XX` of its code otherwise. */
  lemma QuotePlusAscii(c: char)
    requires c as int < 0x80
    ensures QuotePlus([c]) == QuoteByte(c as int)
  {
    assert [c][1..] == [];
    assert Utf8.Encode([c]) == [c as int];
    var bs: seq<byte> := [c as int];
    assert bs[1..] == [];
    assert QuoteBytes(bs) == QuoteByte(c as int) + QuoteBytes([]);
  }

  lemma QuoteSpace()
    ensures QuotePlus(" ") == "+"
  {
    QuotePlusAscii(' ');
    assert QuoteByte(' ' as int) == "+";
  }

  lemma QuoteComma()
    ensures QuotePlus(",") == "%2C"
  {
    QuotePlusAscii(',');
    assert !IsUnreservedByte(44);
    assert HexDigit(44 / 16) == '2' && HexDigit(44 % 16) == 'C';
    assert QuoteByte(',' as int) == ['%', '2', 'C'];
  }
}

=== FILE: utf8.dfy ===
/** UTF-8, the encoding `quote_plus` applies to a `str` before it quotes
    bytes. A Dafny `char` is a Unicode scalar value, so every string has an
    encoding; `Decode` is the partner that takes it back. */
module Utf8 {
  import opened Wrappers

  type byte = b: int | 0 <= b < 256

  predicate IsContinuation(b: byte) {
    0x80 <= b < 0xC0
  }

  /** The one- to four-byte UTF-8 form of one scalar value. */
  function EncodeChar(c: char): (r: seq<byte>)
    ensures 1 <= |r| <= 4
    ensures (|r| == 1) == (c as int < 0x80)
    ensures |r| == 1 ==> r[0] == c as int
  {
    var n := c as int;
    if n < 0x80 then [n]
    else if n < 0x800 then [0xC0 + n / 64, 0x80 + n % 64]
    else if n < 0x10000 then [0xE0 + n / 4096, 0x80 + (n / 64) % 64, 0x80 + n % 64]
    else [0xF0 + n / 262144, 0x80 + (n / 4096) % 64, 0x80 + (n / 64) % 64, 0x80 + n % 64]
  }

  function Encode(s: string): (r: seq<byte>)
    ensures |r| >= |s|
  {
    if |s| == 0 then [] else EncodeChar(s[0]) + Encode(s[1..])
  }

  /** Reads one scalar value off the front of `bs`, with the number of bytes
      it occupies; None on a malformed, overlong or surrogate sequence. */
  function DecodeChar(bs: seq<byte>): (r: Option<(char, nat)>)
    ensures r.Some? ==> 1 <= r.value.1 <= |bs|
  {
    if |bs| == 0 then None
    else
      var b0: int := bs[0];
      var b1: int := if |bs| > 1 then bs[1] else 0;
      var b2: int := if |bs| > 2 then bs[2] else 0;
      var b3: int := if |bs| > 3 then bs[3] else 0;
      if b0 < 0x80 then Some((b0 as char, 1))
      else if 0xC0 <= b0 < 0xE0 then
        if |bs| >= 2 && IsContinuation(bs[1]) then
          var n := (b0 - 0xC0) * 64 + (b1 - 0x80);
          if 0x80 <= n then Some((n as char, 2)) else None
        else None
      else if 0xE0 <= b0 < 0xF0 then
        if |bs| >= 3 && IsContinuation(bs[1]) && IsContinuation(bs[2]) then
          var n := (b0 - 0xE0) * 4096 + (b1 - 0x80) * 64 + (b2 - 0x80);
          if 0x800 <= n && !(0xD800 <= n < 0xE000) then Some((n as char, 3)) else None
        else None
      else if 0xF0 <= b0 < 0xF8 then
        if |bs| >= 4 && IsContinuation(bs[1]) && IsContinuation(bs[2]) && IsContinuation(bs[3]) then
          var n := (b0 - 0xF0) * 262144 + (b1 - 0x80) * 4096 + (b2 - 0x80) * 64 + (b3 - 0x80);
          if 0x10000 <= n < 0x110000 then Some((n as char, 4)) else None
        else None
      else None
  }

  function Decode(bs: seq<byte>): (r: Option<string>)
    decreases |bs|
  {
    if |bs| == 0 then Some([])
    else
      match DecodeChar(bs)
      case None => None
      case Some((c, k)) =>
        match Decode(bs[k..])
        case None => None
        case Some(rest) => Some([c] + rest)
  }

  /** Decoding reads back exactly the character that was encoded, whatever
      follows it. */
  lemma DecodeEncodeChar(c: char, rest: seq<byte>)
    ensures DecodeChar(EncodeChar(c) + rest) == Some((c, |EncodeChar(c)|))
  {
    var n := c as int;
    if n < 0x80 {
      assert (EncodeChar(c) + rest)[0] == n;
    } else if n < 0x800 {
      DecodeTwo(c, rest);
    } else if n < 0x10000 {
      DecodeThree(c, rest);
    } else {
      DecodeFour(c, rest);
    }
  }

  lemma DecodeTwo(c: char, rest: seq<byte>)
    requires 0x80 <= c as int < 0x800
    ensures DecodeChar(EncodeChar(c) + rest) == Some((c, 2))
  {
    var n := c as int;
    var bs := EncodeChar(c) + rest;
    assert bs[0] == 0xC0 + n / 64 && bs[1] == 0x80 + n % 64;
    assert (n / 64) * 64 + n % 64 == n;
  }

  lemma DecodeThree(c: char, rest: seq<byte>)
    requires 0x800 <= c as int < 0x10000
    ensures DecodeChar(EncodeChar(c) + rest) == Some((c, 3))
  {
    var n := c as int;
    var bs := EncodeChar(c) + rest;
    assert bs[0] == 0xE0 + n / 4096 && bs[1] == 0x80 + (n / 64) % 64 && bs[2] == 0x80 + n % 64;
    assert (n / 4096) * 4096 + ((n / 64) % 64) * 64 + n % 64 == n by {
      assert n / 4096 == (n / 64) / 64;
      assert (n / 64) == ((n / 64) / 64) * 64 + (n / 64) % 64;
    }
  }

  lemma DecodeFour(c: char, rest: seq<byte>)
    requires 0x10000 <= c as int
    ensures DecodeChar(EncodeChar(c) + rest) == Some((c, 4))
  {
    var n := c as int;
    var bs := EncodeChar(c) + rest;
    assert bs[0] == 0xF0 + n / 262144 && bs[1] == 0x80 + (n / 4096) % 64;
    assert bs[2] == 0x80 + (n / 64) % 64 && bs[3] == 0x80 + n % 64;
    assert (n / 262144) * 262144 + ((n / 4096) % 64) * 4096 + ((n / 64) % 64) * 64 + n % 64 == n by {
      var m := n / 64;
      var k := m / 64;
      assert n == m * 64 + n % 64;
      assert m == k * 64 + m % 64;
      assert n / 4096 == k;
      assert k == (k / 64) * 64 + k % 64;
      assert n / 262144 == k / 64;
    }
  }

  /** The UTF-8 round trip: decoding an encoding gives the string back. */
  lemma {:induction false} DecodeEncode(s: string)
    ensures Decode(Encode(s)) == Some(s)
    decreases |s|
  {
    if |s| > 0 {
      var e := EncodeChar(s[0]);
      var bs := Encode(s);
      assert bs == e + Encode(s[1..]);
      DecodeEncodeChar(s[0], Encode(s[1..]));
      assert bs[|e|..] == Encode(s[1..]);
      DecodeEncode(s[1..]);
      assert [s[0]] + s[1..] == s;
    }
  }

  /** Hence the encoding is injective. */
  lemma EncodeInjective(s: string, t: string)
    requires Encode(s) == Encode(t)
    ensures s == t
  {
    DecodeEncode(s);
    DecodeEncode(t);
  }
}

=== FILE: wrappers.dfy ===
/** The optional-value type shared by every module of the model. A Python
    value that may be `None`, or a dictionary key that may be absent, is an
    `Option`. */
module Wrappers {

  datatype Option<+T> = None | Some(value: T) {

    /** Returns the value held in Some, or `default` when None. */
    function GetOr(default: T): T {
      match this
      case Some(v) => v
      case None => default
    }
  }
}
